=== FILE: README.md ===
# SmartEcoQ data-processing core in Dafny

SmartEcoQ is a set of Streamlit pages for the city of Lucca: an events
assistant, a recycling assistant and a map navigator of public services.
Behind the pages sit a few small data-processing steps, and this project
models them and proves properties about them:

- **Event programme parser** (`data-scraping/transform-data.py`,
  `parse_event_data`). The plain-text programme is stripped and split into
  blank-line-separated blocks. Each block is split into lines. The second
  line may carry the booking marker "Evento su prenotazione". Date, title,
  location and the "start/end" time line are read at fixed offsets. Python's
  `IndexError` and the `ValueError` of a failed unpacking are explicit error
  results. The per-block loop is an imperative method proved equal to a
  functional specification. Parsing a rendered programme gives its events
  back.
- **Event formatter** (`data-scraping/json-to-text.py`). `format_event`
  turns a record into a fixed seven-line block. The driver formats every
  event and `write_text` joins the blocks with blank lines. Every record the
  parser produces formats without a missing key, and the written text
  splits back into its blocks.
- **Date filter** (`data-scraping/delete-irrelevant-info.py`,
  `delete_objects_by_date`). Despite its name, it keeps the objects dated
  with the argument.
- **Bin rules** (`recycling_assistant.py`). `get_bin_image` is a
  case-insensitive table lookup. The `if`/`elif` chain of `main` is a
  first-match classifier over the lower-cased paragraph. The advice is split
  on blank lines and whitespace-only paragraphs are skipped.
- **Navigator** (`navigator.py`). GeoJSON features become map records with
  the coordinate order swapped. Amenities default to "Sconosciuto". The
  sidebar offers the distinct categories and filters by the selection. A
  drawn 'Point' becomes the destination.
- **Queue annotation** (`data/add_queue.py`). Every feature's properties get
  a `queue` value in 0..20, updated in place over an array.

Python's string built-ins (`strip`, `split`, `join`, `in`, `lower`, `*`) are
modelled in module `PyStrings`, with their semantics proved. JSON values,
dict and list access, truthiness and the exceptions they raise are modelled
in module `PyJson`. `Sequences` holds the list comprehension (`MapAll`) and
the filtering comprehension (`FilterAll`), which stop at the first exception.

## Model

| member | source | states |
|---|---|---|
| EventParser.EventRecord | data-scraping/transform-data.py:24-31 | the appended dict has exactly the keys date, title, location, start_time, end_time and warning; every field but warning is a string; warning is null exactly when the event has none |
| EventParser.ParseLines | data-scraping/transform-data.py:17-31 | a block of fewer than 2 lines raises IndexError(1); a block that parses has at least five lines |
| EventParser.ParseLinesFields | data-scraping/transform-data.py:18-31 | the date is always line 0 stripped; with the booking marker on line 1 the warning is line 1 stripped, title and location are lines 2 and 3 and the times the stripped pieces of line 5 around its single '/'; without it there is no warning, title and location are lines 1 and 2 and the times come from line 4 |
| EventParser.ParseBlock | data-scraping/transform-data.py:17 | a block that parses has at least five lines; see `ParseBlockOutcome`, `ParsedEventClean` and `ParseRenderedBlock` |
| EventParser.ParseBlocks | data-scraping/transform-data.py:16-32 | a successful parse holds one record per block; see `ParseBlocksPerBlock` for the order and `ParseBlocksFirstError` for the error |
| EventParser.ParseEvents | data-scraping/transform-data.py:13-34 | a successful parse holds one record per blank-line-separated block of the stripped text |
| EventParser.ParseOneEvent | data-scraping/transform-data.py:17-31 | one loop pass returns the block's record or its exception, as the functional specification `ParseBlock` says |
| EventParser.ParseEachBlock | data-scraping/transform-data.py:14-34 | the loop over the blocks appends one record per block and stops at the first exception, as `ParseBlocks` says |
| EventParser.ParseEventData | data-scraping/transform-data.py:13-34 | the whole parse (strip, split on blank lines, parse each block) equals `ParseEvents` |
| EventParser.ParseBlockOutcome | data-scraping/transform-data.py:17-23 | fewer than 2 lines is IndexError(1); a plain block shorter than 5 lines or a booked block shorter than 6 is IndexError at the time line; otherwise the block parses iff its time line holds exactly one '/', and fails with ValueError when not |
| EventParser.ParsedEventClean | data-scraping/transform-data.py:18-31 | every field of a parsed record is stripped and free of newlines; the record has a warning iff line 1 holds the booking marker |
| EventParser.ParseBlocksPerBlock | data-scraping/transform-data.py:16-34 | the parse succeeds iff every block parses; it then holds one record per block, in block order |
| EventParser.ParseBlocksFirstError | data-scraping/transform-data.py:16-32 | a failing parse reports the exception of the first failing block, all earlier blocks parsing |
| EventParser.BlankInputFails | data-scraping/transform-data.py:13-19 | empty or whitespace-only input is one empty block and fails with IndexError(1) |
| EventParser.ParseRenderedBlock | data-scraping/transform-data.py:17-31 | a block laid out as date, optional booking line, title, location, a skipped line, "start/end" parses back to exactly that event, provided the event is renderable: every field non-empty, stripped and free of newlines, neither time containing '/', the warning containing the booking marker and an unbooked title not containing it, and the skipped line non-empty and free of newlines |
| EventParser.ParseRenderedText | data-scraping/transform-data.py:13-34 | a non-empty list of renderable events, rendered as such blocks and joined by blank lines, parses back to that list, one event per block, in order (an empty programme fails instead, see `BlankInputFails`) |
| EventParser.RenderedTextSplits | data-scraping/transform-data.py:13 | for a non-empty list of renderable events, the blank-line split of the rendered programme gives back its blocks |
| EventFormatter.FormatEvent | data-scraping/json-to-text.py:13-22 | formatting succeeds iff the event is a dict holding all six keys; a non-dict raises TypeError |
| EventFormatter.FormatEventMissingKey | data-scraping/json-to-text.py:13-19 | a dict missing a key raises KeyError for the first missing key in reading order |
| EventFormatter.FormatEventValue | data-scraping/json-to-text.py:13-22 | a successful format is the block built from the record's own six values |
| EventFormatter.BlockSevenLines | data-scraping/json-to-text.py:14-22 | when no value shows a newline, the block splits into exactly seven lines, in the fixed order Date, Title, Location, Start Time, End Time, warning line, rule, each label followed by the value |
| EventFormatter.BlockEndsWithRule | data-scraping/json-to-text.py:20-22 | the block ends with a newline and then forty '-' characters, with no trailing newline |
| EventFormatter.FalsyWarningsAlike | data-scraping/json-to-text.py:13 | every falsy warning (None, the empty string, …) gives "No warnings" |
| EventFormatter.StringWarningShown | data-scraping/json-to-text.py:13 | a non-empty string warning is shown verbatim after "Warning: " |
| EventFormatter.FormatParsedRecord | data-scraping/json-to-text.py:13-22 | every record the parser produces formats without raising, and the block shows each field verbatim under its label |
| EventFormatter.ParsedRecordSevenLines | data-scraping/json-to-text.py:14-22 | the block of a parsed record splits into exactly seven lines |
| EventFormatter.ParsedRecordNoBlankLine | data-scraping/json-to-text.py:14-22 | the block of a parsed record contains no blank line |
| EventFormatter.WriteText | data-scraping/json-to-text.py:46 | no blocks give the empty text; one block is written as it is |
| EventFormatter.WrittenTextSplits | data-scraping/json-to-text.py:46 | a non-empty list of blocks without blank lines is recovered by splitting the written text on blank lines, so n >= 1 blocks are separated by n-1 blank lines (no blocks give "", which splits into one empty piece) |
| EventFormatter.FormatAll | data-scraping/json-to-text.py:57 | a successful comprehension gives as many blocks as events; see `FormatAllPerEvent` |
| EventFormatter.FormatAllPerEvent | data-scraping/json-to-text.py:57 | the comprehension succeeds iff every event formats, giving one block per event, in input order |
| EventFormatter.FormatParsedProgramme | data-scraping/json-to-text.py:46-60 | a non-empty list of parsed records always formats, and the written programme splits back into one block per event |
| DateFilter.KeepByDate | data-scraping/delete-irrelevant-info.py:14 | the result is no longer than the input; see `KeptHaveDate`, `KeepByDateSelects`, `KeepByDateIdempotent` and `KeepByDateFailure` |
| DateFilter.DateMatches | data-scraping/delete-irrelevant-info.py:14 | the test raises iff the object is not a dict with a `date` key, and holds iff its date is the argument |
| DateFilter.KeptHaveDate | data-scraping/delete-irrelevant-info.py:12-14 | every kept object is a dict whose date is the argument: the function keeps, not deletes |
| DateFilter.KeepByDateSelects | data-scraping/delete-irrelevant-info.py:14 | the result is an order-preserving subsequence, no longer than the input, holding each dated object with its multiplicity and nothing else |
| DateFilter.KeepByDateIdempotent | data-scraping/delete-irrelevant-info.py:14 | filtering the result again with the same date returns it unchanged |
| DateFilter.KeepByDateFailure | data-scraping/delete-irrelevant-info.py:14 | the call raises iff some object lacks a `date`, with the error of the first such object |
| RecyclingBins.GetBinImage | recycling_assistant.py:167-182 | the image is found iff the lower-cased name is one of the ten table keys, and is then that entry; otherwise None |
| RecyclingBins.GetBinImageIgnoresCase | recycling_assistant.py:182 | names that lower-case alike get the same image |
| RecyclingBins.PharmacyImageMissing | recycling_assistant.py:178 | "farmacie" has no image, because the table key is "famacie" |
| RecyclingBins.ChooseBin | recycling_assistant.py:219-234 | the chosen bin, when there is one, is one of the eight names the chain passes to `get_bin_image`; see `ChooseBinIsFirstMatch` and `ChooseBinPriority` |
| RecyclingBins.FirstMatchIsEarliest | recycling_assistant.py:219-234 | first-match rule scan: a bin is chosen iff some rule matches, and it is the bin of the earliest matching rule |
| RecyclingBins.ChooseBinIsFirstMatch | recycling_assistant.py:219-234 | the `if`/`elif` chain equals the first match over the rule table grey, brown, yellow, blue, red, oil_symbol, battery_symbol, farmacie |
| RecyclingBins.ChooseBinPriority | recycling_assistant.py:219-234 | no bin iff no keyword occurs in the lower-cased paragraph; otherwise the bin of the earliest rule with a keyword present |
| RecyclingBins.ChooseBinIgnoresCase | recycling_assistant.py:219-233 | paragraphs that lower-case alike get the same bin |
| RecyclingBins.GreyWins | recycling_assistant.py:219-220 | a paragraph mentioning grey gets the grey bin, whatever else it mentions |
| RecyclingBins.RequiredSelectsRed | recycling_assistant.py:219-228 | matching is by substring: "required" selects the red bin when no earlier rule matched |
| RecyclingBins.ImagesOfChosenBins | recycling_assistant.py:219-234 | every chosen bin has an image except "farmacie", which never shows one |
| RecyclingBins.NonBlank | recycling_assistant.py:211-213 | the kept pieces are no more than the pieces and none strips to nothing; see `NonBlankSelects` |
| RecyclingBins.AdviceItems | recycling_assistant.py:209-213 | the displayed paragraphs are no more than the pieces of the blank-line split and none strips to nothing; see `AdviceItemsAreNonBlankPieces` |
| RecyclingBins.NonBlankSelects | recycling_assistant.py:211-213 | the kept paragraphs are exactly the pieces that are not all whitespace, in order and with their multiplicity |
| RecyclingBins.AdviceItemsAreNonBlankPieces | recycling_assistant.py:209-213 | the displayed paragraphs are the non-blank pieces of the advice split on blank lines |
| RecyclingBins.AdviceRows | recycling_assistant.py:211-234 | one displayed row per non-blank paragraph |
| RecyclingBins.FirstMatchBeforeLast | recycling_assistant.py:219-234 | when the last rule's bin is distinct, first match picks another bin exactly when one of the earlier rules matches |
| RecyclingBins.ImageIffEarlyRule | recycling_assistant.py:219-234 | a paragraph shows an image iff the chain picks a bin other than "farmacie", iff a keyword of one of the first seven rules occurs in the lower-cased paragraph |
| RecyclingBins.AdviceRowsShowChoice | recycling_assistant.py:211-234 | each row shows its non-blank paragraph and the chain's bin for it; it has an image iff that bin is not "farmacie", iff a keyword of one of the first seven rules occurs in the lower-cased paragraph |
| Navigator.PlaceOf | navigator.py:33-39 | a record is built only from a dict with `properties`, and carries those properties unchanged |
| Navigator.PlaceOfSwapsPosition | navigator.py:36-37 | a GeoJSON position [lon, lat, …] becomes latitude lat and longitude lon |
| Navigator.PlaceOfErrors | navigator.py:33-37 | a feature without `properties` or `geometry` raises KeyError for it; fewer than two coordinates raise IndexError(1); otherwise the record is built from coordinates 1 and 0 |
| Navigator.Extract | navigator.py:31-39 | a successful extraction needs a `features` list and gives one record per feature; see `ExtractPerFeature` |
| Navigator.ExtractPlaces | navigator.py:31-39 | the extraction loop returns what the functional specification `Extract` gives |
| Navigator.ExtractPerFeature | navigator.py:31-39 | extraction succeeds iff every feature converts, giving one record per feature, in feature order |
| Navigator.CategoryOf | navigator.py:44 | the category lookup succeeds iff the properties are a dict |
| Navigator.CategoryDefault | navigator.py:44 | a record without an amenity is categorised "Sconosciuto", one with an amenity by it |
| Navigator.Amenities | navigator.py:44 | the option list has no duplicates; a frame of no records has no `properties` column and raises KeyError |
| Navigator.AmenitiesAreDistinctCategories | navigator.py:44 | the option list holds every record's category exactly once and nothing else |
| Navigator.SelectPlaces | navigator.py:52 | every kept record's category is selected and the result is no longer than the input; a frame of no records raises KeyError |
| Navigator.SelectPlacesKeeps | navigator.py:52 | the filter keeps exactly the records whose category is selected, in order and with their multiplicity |
| Navigator.DefaultSelectionKeepsAll | navigator.py:45-52 | with the default selection, all categories, the filter keeps every record |
| Navigator.Destination | navigator.py:84-88 | a destination is produced only from a dict whose geometry type is 'Point' |
| Navigator.DestinationIsRawCoordinates | navigator.py:84-88 | a drawn dict whose geometry is a 'Point' with a coordinate list gives exactly those coordinates, whatever other members it has |
| Navigator.DestinationKeepsOrder | navigator.py:36-88 | a drawn GeoJSON point keeps its [lon, lat] order as the destination, while the same feature extracted as a place is swapped to latitude lat and longitude lon |
| Navigator.NonPointIgnored | navigator.py:86 | a drawn object whose geometry is not a 'Point' gives no destination |
| QueueAnnotation.Annotate | data/add_queue.py:19 | the assignment succeeds iff the feature is a dict whose `properties` is a dict; missing `properties` raises KeyError |
| QueueAnnotation.AnnotateChangesOnlyQueue | data/add_queue.py:19 | the update sets `queue` to the drawn value and changes no other property and no other member of the feature |
| QueueAnnotation.AnnotateInRange | data/add_queue.py:6-19 | a drawn value in 0..20 leaves a queue in 0..20 |
| QueueAnnotation.AnnotateOverwrites | data/add_queue.py:19 | a second annotation replaces an existing queue value |
| QueueAnnotation.AddQueue | data/add_queue.py:17-25 | in place over the feature array: on success every feature is its annotated self with a queue in 0..20, the count is the number of features; on failure the features before the failing one are updated and the rest untouched |
| PyStrings.Strip | data-scraping/transform-data.py:13 | the result has no whitespace at either end, and a text without whitespace at its ends is left alone; see `StripIsTrim` |
| PyStrings.Split | data-scraping/transform-data.py:13 | a split always yields at least one piece; see `JoinSplit`, `SplitPiecesAvoidSep` and `SplitJoin` |
| PyStrings.Join | data-scraping/json-to-text.py:46 | no parts give the empty text, and the text starts with the first part; see `SplitJoin` and `JoinSplit` |
| PyStrings.ContainsIff | recycling_assistant.py:219-233 | `Contains`, the model of `sub in s`, holds iff `sub` occurs at some position of `s` |
| PyStrings.Repeat | data-scraping/json-to-text.py:21 | `c * n` has length n and every character is c |
| PyJson.Lookup | data-scraping/json-to-text.py:13-19 | `d[key]` succeeds iff d is a dict holding key, giving its value; a dict without key raises KeyError(key), anything else TypeError |
| PyJson.Index | navigator.py:36-37 | `v[i]` succeeds iff v is a list longer than i, giving its i-th item; a shorter list raises IndexError(i) |
| PyJson.Get | navigator.py:44 | `d.get(key, default)` succeeds iff d is a dict, giving the value at key or the default when key is absent |
| PyStrings.Lower | recycling_assistant.py:182 | the result has the input's length, each character lower-cased on its own; see `LowerIdempotent` |
| PyJson.Truthy | data-scraping/json-to-text.py:13 | `bool()`: None, False, 0, 0.0 and the empty string, list and dict are false; a non-empty string and a non-zero integer are true |
| PyJson.Display | data-scraping/json-to-text.py:14-20 | an f-string placeholder shows a string value verbatim |
| PyStrings.StripIsTrim | data-scraping/transform-data.py:13 | `strip()` removes a whitespace run from each end and nothing else, leaving nothing iff the text is all whitespace |
| PyStrings.JoinSplit | data-scraping/transform-data.py:13 | joining the pieces of `split(sep)` with `sep` gives the text back |
| PyStrings.SplitPiecesAvoidSep | data-scraping/transform-data.py:17 | no piece of a split contains the separator |
| PyStrings.SplitCharCount | data-scraping/transform-data.py:21 | splitting on a character gives one piece more than the number of occurrences of that character |
| PyStrings.SplitJoin | data-scraping/json-to-text.py:46 | for a non-empty list of parts, splitting their join gives back the parts when no part lets the separator start early (no parts give "", which splits into one empty piece) |
| PyStrings.LowerIdempotent | recycling_assistant.py:182 | lower-casing twice is lower-casing once |

## Left out

- File reads and writes (`open`, `json.load`, `json.dump`, `save_as_json`, `read_json`, `write_json`, `load_recycling_data`) and `print`: the model works on the in-memory strings and values.
- The LLM and IAM calls (`analyze_image`, `get_recycling_advice`, the chat call in event_assistant.py, the token fetch in utils.py) and the camera input: network I/O. The advice text is a parameter of `RecyclingBins.AdviceRows`.
- Streamlit widgets, session state and page dispatch (app.py), folium rendering, the map-centre mean of navigator.py:58 and `calculate_route` with geopy's geodesic distance (navigator.py:109-111): UI, floating point and a foreign library. The multiselect's selection is a parameter of `Navigator.SelectPlaces`.
- The fixed starting point `start = (43.843, 10.508)` of navigator.py:55 is used only by the map and the route, which are left out above; the model keeps no constant for it.
- booking.py (SQLite table creation and QR decoding) is not part of this model.
- `random.randint(0, 20)`: the drawn values are the `queues` parameter of `QueueAnnotation.AddQueue`, each required to lie in 0..20.
- Display: a list- or dict-valued field that `EventFormatter.FormatEvent` (and so `FormatEventValue`) places in a block is shown as the empty string, where Python's f-string shows its repr (`['x']`, say); a truthy list or dict warning likewise gives "Warning: " with nothing after it. Python's repr of containers, with its quoting and escaping, is not modelled. A float is shown by its source text rather than by Python's shortest repr.
- Truthy: a float counts as zero exactly when its source text has no digit 1-9 before the exponent. So `1e-400`, which Python loads as 0.0 and treats as false, is true here, and `NaN` and `Infinity`, which `json.load` accepts and Python treats as true, are false here; float parsing and rounding are not modelled.
- Lower: maps only the ASCII and Latin-1 capitals; full Unicode case mapping is not modelled.
- Subscripting a string, iterating over a dict and similar uses of the wrong kind of value are all folded into `TypeError`.
- Navigator.Amenities: pandas' `unique` is modelled as order of first appearance under structural equality; unhashable values, which pandas may reject, are not distinguished.
- Navigator.Amenities and Navigator.SelectPlaces: a frame built from no features has no `properties` column and raises KeyError; the model states this error but no other pandas behaviour.
- Navigator.Destination: `in` on a drawn object that is not a dict is folded into TypeError.
- QueueAnnotation.AddQueue: the features are an array of immutable values, so aliasing between feature dicts is not modelled, nor are the `features` lookup and its KeyError on the document.

=== FILE: date_filter.dfy ===
/** data-scraping/delete-irrelevant-info.py: `delete_objects_by_date` is a
    comprehension that keeps (despite its name) the objects whose `date`
    equals the argument. */
module DateFilter {
  import opened Wrappers
  import opened PyJson
  import opened Sequences

  /** `obj` is a dict whose `date` is `date`. */
  predicate HasDate(obj: Json, date: string) {
    obj.Obj? && "date" in obj.fields && obj.fields["date"] == Str(date)
  }

  /** `obj['date'] == date`: raises when `obj` has no `date`; a value of
      any other kind than a string never equals the string. */
  function DateMatches(date: string, obj: Json): (r: Result<bool, PyError>)
    ensures r.Success? <==> obj.Obj? && "date" in obj.fields
    ensures r == Success(true) <==> HasDate(obj, date)
  {
    var d :- Lookup(obj, "date");
    Success(d == Str(date))
  }

  function DateTest(date: string): Json -> Result<bool, PyError> {
    obj => DateMatches(date, obj)
  }

  /** `[obj for obj in data if obj['date'] == date]`. */
  function KeepByDate(data: seq<Json>, date: string): (r: Result<seq<Json>, PyError>)
    ensures r.Success? ==> |r.value| <= |data|
  {
    FilterAll(DateTest(date), data)
  }

  /** The filter keeps, rather than removes, the matching objects: every
      object in the result is a dict whose `date` is the argument. */
  lemma KeptHaveDate(data: seq<Json>, date: string)
    requires KeepByDate(data, date).Success?
    ensures forall k :: 0 <= k < |KeepByDate(data, date).value| ==>
      var obj := KeepByDate(data, date).value[k];
      HasDate(obj, date)
  {
    var r := KeepByDate(data, date).value;
    forall k | 0 <= k < |r|
      ensures HasDate(r[k], date)
    {
      assert DateTest(date)(r[k]) == Success(true);
    }
  }

  /** Each input object with the date occurs in the result as often as in
      the input, passed through unmodified; no other object occurs. The
      result is an order-preserving subsequence of the input and no
      longer than it. */
  lemma KeepByDateSelects(data: seq<Json>, date: string)
    requires KeepByDate(data, date).Success?
    ensures var r := KeepByDate(data, date).value;
      && IsSubsequence(r, data)
      && |r| <= |data|
      && forall x: Json :: multiset(r)[x] ==
           if HasDate(x, date) then multiset(data)[x] else 0
  {
    FilterAllSelects(DateTest(date), data);
    var r := KeepByDate(data, date).value;
    forall x: Json
      ensures multiset(r)[x] ==
        if HasDate(x, date) then multiset(data)[x] else 0
    {
      assert DateTest(date)(x) == DateMatches(date, x);
    }
  }

  /** Filtering the result again with the same date returns it unchanged. */
  lemma KeepByDateIdempotent(data: seq<Json>, date: string)
    requires KeepByDate(data, date).Success?
    ensures KeepByDate(KeepByDate(data, date).value, date) == KeepByDate(data, date)
  {
    FilterAllIdempotent(DateTest(date), data);
  }

  /** The call raises exactly when some object is not a dict with a `date`
      key; the error is that of the first such object. */
  lemma KeepByDateFailure(data: seq<Json>, date: string)
    ensures KeepByDate(data, date).Failure? <==>
      exists k :: 0 <= k < |data| && !(data[k].Obj? && "date" in data[k].fields)
    ensures KeepByDate(data, date).Failure? ==>
      exists k :: (0 <= k < |data| && Lookup(data[k], "date") == Failure(KeepByDate(data, date).error)
                   && forall j :: 0 <= j < k ==> data[j].Obj? && "date" in data[j].fields)
  {
    var test := DateTest(date);
    FilterAllFailure(test, data);
    if KeepByDate(data, date).Failure? {
      var k :| 0 <= k < |data| && test(data[k]) == Failure(FilterAll(test, data).error)
        && forall j :: 0 <= j < k ==> test(data[j]).Success?;
      assert Lookup(data[k], "date") == Failure(KeepByDate(data, date).error);
      assert forall j :: 0 <= j < k ==> data[j].Obj? && "date" in data[j].fields by {
        forall j | 0 <= j < k
          ensures data[j].Obj? && "date" in data[j].fields
        {
          assert test(data[j]).Success?;
        }
      }
    } else {
      forall k | 0 <= k < |data|
        ensures data[k].Obj? && "date" in data[k].fields
      {
        assert !test(data[k]).Failure?;
      }
    }
  }
}

=== FILE: event_formatter.dfy ===
/** data-scraping/json-to-text.py: `format_event` renders one event record
    as a fixed seven-line block, and `write_text` joins the blocks with blank
    lines. */
module EventFormatter {
  import opened Wrappers
  import opened PyStrings
  import opened PyJson
  import opened Sequences
  import EventParser

  /** The keys `format_event` reads, in the order it reads them. */
  const FormatKeys: seq<string> := ["warning", "date", "title", "location", "start_time", "end_time"]

  /** The closing rule: forty dashes. */
  const Rule: string := Repeat('-', 40)

  /** The sixth line: the warning when it is truthy, a fixed text otherwise. */
  function WarningLine(w: Json): string {
    if Truthy(w) then "Warning: " + Display(w) else "No warnings"
  }

  /** The f-string of `format_event`, given the six looked-up values. */
  function Block(w: Json, date: Json, title: Json, location: Json, start: Json, end: Json): string {
    ("Date: " + Display(date)) + "\n"
    + ("Title: " + Display(title)) + "\n"
    + ("Location: " + Display(location)) + "\n"
    + ("Start Time: " + Display(start)) + "\n"
    + ("End Time: " + Display(end)) + "\n"
    + WarningLine(w) + "\n"
    + Rule
  }

  /** The seven lines of a block, each a label followed by the value. */
  function BlockLines(w: Json, date: Json, title: Json, location: Json, start: Json, end: Json): seq<string> {
    [ "Date: " + Display(date),
      "Title: " + Display(title),
      "Location: " + Display(location),
      "Start Time: " + Display(start),
      "End Time: " + Display(end),
      WarningLine(w),
      Rule ]
  }

  /** `format_event(event)`: the block, or the exception of the first key
      lookup that raises. */
  function FormatEvent(event: Json): (r: Result<string, PyError>)
    ensures r.Success? <==> event.Obj? && (set k | k in FormatKeys) <= event.fields.Keys
    ensures !event.Obj? ==> r == Failure(TypeError)
  {
    var w :- Lookup(event, "warning");
    var date :- Lookup(event, "date");
    var title :- Lookup(event, "title");
    var location :- Lookup(event, "location");
    var start :- Lookup(event, "start_time");
    var end :- Lookup(event, "end_time");
    Success(Block(w, date, title, location, start, end))
  }

  /** A record missing a key fails with KeyError for the first missing key
      in reading order. */
  lemma FormatEventMissingKey(event: Json, k: nat)
    requires event.Obj? && k < |FormatKeys|
    requires FormatKeys[k] !in event.fields
    requires forall j :: 0 <= j < k ==> FormatKeys[j] in event.fields
    ensures FormatEvent(event) == Failure(KeyError(FormatKeys[k]))
  {
    if k > 0 { assert FormatKeys[0] in event.fields; }
    if k > 1 { assert FormatKeys[1] in event.fields; }
    if k > 2 { assert FormatKeys[2] in event.fields; }
    if k > 3 { assert FormatKeys[3] in event.fields; }
    if k > 4 { assert FormatKeys[4] in event.fields; }
  }

  /** A successful format is the block of the record's own values. */
  lemma FormatEventValue(event: Json)
    requires FormatEvent(event).Success?
    ensures var f := event.fields;
      FormatEvent(event).value
        == Block(f["warning"], f["date"], f["title"], f["location"], f["start_time"], f["end_time"])
  {
    assert FormatKeys[0] in event.fields && FormatKeys[1] in event.fields && FormatKeys[2] in event.fields;
    assert FormatKeys[3] in event.fields && FormatKeys[4] in event.fields && FormatKeys[5] in event.fields;
  }

  /** Seven strings concatenated with newlines between them are their
      newline join. */
  lemma JoinSeven(a: string, b: string, c: string, d: string, e: string, f: string, g: string)
    ensures a + "\n" + b + "\n" + c + "\n" + d + "\n" + e + "\n" + f + "\n" + g
      == Join("\n", [a, b, c, d, e, f, g])
  {
    assert [a] + [b] == [a, b];
    JoinSnoc("\n", [a], b);
    JoinSnoc("\n", [a, b], c);
    assert [a, b] + [c] == [a, b, c];
    JoinSnoc("\n", [a, b, c], d);
    assert [a, b, c] + [d] == [a, b, c, d];
    JoinSnoc("\n", [a, b, c, d], e);
    assert [a, b, c, d] + [e] == [a, b, c, d, e];
    JoinSnoc("\n", [a, b, c, d, e], f);
    assert [a, b, c, d, e] + [f] == [a, b, c, d, e, f];
    JoinSnoc("\n", [a, b, c, d, e, f], g);
    assert [a, b, c, d, e, f] + [g] == [a, b, c, d, e, f, g];
  }

  /** The block is its seven lines joined by newlines. */
  lemma BlockIsJoinedLines(w: Json, date: Json, title: Json, location: Json, start: Json, end: Json)
    ensures Block(w, date, title, location, start, end) == Join("\n", BlockLines(w, date, title, location, start, end))
  {
    JoinSeven("Date: " + Display(date), "Title: " + Display(title), "Location: " + Display(location),
      "Start Time: " + Display(start), "End Time: " + Display(end), WarningLine(w), Rule);
  }

  lemma LabelledLineHasNoNewline(w: Json, date: Json, title: Json, location: Json, start: Json, end: Json, k: nat)
    requires '\n' !in Display(w) && '\n' !in Display(date) && '\n' !in Display(title)
    requires '\n' !in Display(location) && '\n' !in Display(start) && '\n' !in Display(end)
    requires k < 7
    ensures BlockLines(w, date, title, location, start, end)[k] != []
    ensures '\n' !in BlockLines(w, date, title, location, start, end)[k]
  {
    var line := BlockLines(w, date, title, location, start, end)[k];
    LabelsOneLine();
    if k == 0 {
      LabelledNoNewline("Date: ", Display(date));
    } else if k == 1 {
      LabelledNoNewline("Title: ", Display(title));
    } else if k == 2 {
      LabelledNoNewline("Location: ", Display(location));
    } else if k == 3 {
      LabelledNoNewline("Start Time: ", Display(start));
    } else if k == 4 {
      LabelledNoNewline("End Time: ", Display(end));
    } else if k == 5 && Truthy(w) {
      LabelledNoNewline("Warning: ", Display(w));
    } else if k == 6 {
      RepeatAvoids('-', 40, '\n');
    }
  }

  lemma LabelsOneLine()
    ensures '\n' !in "Date: " && '\n' !in "Title: " && '\n' !in "Location: "
    ensures '\n' !in "Start Time: " && '\n' !in "End Time: " && '\n' !in "Warning: "
    ensures '\n' !in "No warnings"
  {
  }

  /** A label followed by a value on one line stays on one line. */
  lemma LabelledNoNewline(caption: string, value: string)
    requires caption != [] && '\n' !in caption && '\n' !in value
    ensures caption + value != [] && '\n' !in caption + value
  {
  }

  /** When no value shows a newline, the block splits into exactly its
      seven lines, in fixed order, each label followed by the value as
      shown. */
  lemma BlockSevenLines(w: Json, date: Json, title: Json, location: Json, start: Json, end: Json)
    requires '\n' !in Display(w) && '\n' !in Display(date) && '\n' !in Display(title)
    requires '\n' !in Display(location) && '\n' !in Display(start) && '\n' !in Display(end)
    ensures Split(Block(w, date, title, location, start, end), "\n") == BlockLines(w, date, title, location, start, end)
    ensures |BlockLines(w, date, title, location, start, end)| == 7
  {
    var lines := BlockLines(w, date, title, location, start, end);
    forall k | 0 <= k < |lines|
      ensures '\n' !in lines[k]
    {
      LabelledLineHasNoNewline(w, date, title, location, start, end, k);
    }
    BlockIsJoinedLines(w, date, title, location, start, end);
    SplitJoinedLines(lines);
  }

  /** The last line is forty dashes and the block ends there, with no
      trailing newline. */
  lemma BlockEndsWithRule(w: Json, date: Json, title: Json, location: Json, start: Json, end: Json)
    ensures var b := Block(w, date, title, location, start, end);
      && |b| > 41
      && b[|b| - 41] == '\n'
      && b[|b| - 40..] == Rule
      && |Rule| == 40 && (forall i :: 0 <= i < |Rule| ==> Rule[i] == '-')
      && b[|b| - 1] == '-'
  {
    var b := Block(w, date, title, location, start, end);
    var head := ("Date: " + Display(date)) + "\n"
      + ("Title: " + Display(title)) + "\n"
      + ("Location: " + Display(location)) + "\n"
      + ("Start Time: " + Display(start)) + "\n"
      + ("End Time: " + Display(end)) + "\n"
      + WarningLine(w);
    assert b == head + "\n" + Rule;
    assert b[|b| - 40..] == Rule;
  }

  /** Any falsy warning (None, "", 0, False, [] or {}) gives the same
      line. */
  lemma FalsyWarningsAlike(w: Json)
    requires !Truthy(w)
    ensures WarningLine(w) == WarningLine(Null) == WarningLine(Str([])) == "No warnings"
  {
  }

  /** A truthy string warning is shown verbatim after its label. */
  lemma StringWarningShown(s: string)
    requires s != []
    ensures WarningLine(Str(s)) == "Warning: " + s
  {
  }

  /** The records the event parser produces carry every key the formatter
      reads, so formatting them never raises; the block shows each field
      verbatim. */
  lemma FormatParsedRecord(e: EventParser.Event)
    ensures var r := FormatEvent(EventParser.EventRecord(e));
      && r.Success?
      && r.value == Join("\n", [
           "Date: " + e.date,
           "Title: " + e.title,
           "Location: " + e.location,
           "Start Time: " + e.startTime,
           "End Time: " + e.endTime,
           if e.warning.Some? && e.warning.value != [] then "Warning: " + e.warning.value else "No warnings",
           Rule])
  {
    var rec := EventParser.EventRecord(e);
    var f := rec.fields;
    FormatEventValue(rec);
    var w, date, title, location, start, end :=
      f["warning"], f["date"], f["title"], f["location"], f["start_time"], f["end_time"];
    BlockIsJoinedLines(w, date, title, location, start, end);
    assert Display(date) == e.date && Display(title) == e.title && Display(location) == e.location;
    assert Display(start) == e.startTime && Display(end) == e.endTime;
    assert WarningLine(w) ==
      if e.warning.Some? && e.warning.value != [] then "Warning: " + e.warning.value else "No warnings";
  }

  /** The block of a parsed record (whose fields hold no newline) splits
      into exactly seven lines. */
  lemma ParsedRecordSevenLines(e: EventParser.Event)
    requires EventParser.CleanEvent(e)
    ensures |Split(FormatEvent(EventParser.EventRecord(e)).value, "\n")| == 7
  {
    var rec := EventParser.EventRecord(e);
    var f := rec.fields;
    FormatEventValue(rec);
    BlockSevenLines(f["warning"], f["date"], f["title"], f["location"], f["start_time"], f["end_time"]);
  }

  /** Nor does it hold a blank line. */
  lemma ParsedRecordNoBlankLine(e: EventParser.Event)
    requires EventParser.CleanEvent(e)
    ensures FormatEvent(EventParser.EventRecord(e)).Success?
    ensures NoBlankLine(FormatEvent(EventParser.EventRecord(e)).value)
  {
    var rec := EventParser.EventRecord(e);
    var f := rec.fields;
    FormatEventValue(rec);
    BlockNoBlankLine(f["warning"], f["date"], f["title"], f["location"], f["start_time"], f["end_time"]);
  }

  /** `write_text`: the blocks joined by blank lines. */
  function WriteText(blocks: seq<string>): (r: string)
    ensures blocks == [] ==> r == []
    ensures |blocks| == 1 ==> r == blocks[0]
  {
    Join("\n\n", blocks)
  }

  /** Blocks without blank lines can be recovered from the written text:
      n blocks are separated by exactly n-1 blank lines. */
  lemma WrittenTextSplits(blocks: seq<string>)
    requires blocks != []
    requires forall k :: 0 <= k < |blocks| ==> NoBlankLine(blocks[k])
    ensures Split(WriteText(blocks), "\n\n") == blocks
  {
    forall k | 0 <= k < |blocks|
      ensures NoEarlySep(blocks[k], "\n\n")
    {
      NoBlankLineNoEarlySep(blocks[k]);
    }
    SplitJoin(blocks, "\n\n");
  }

  /** A block whose values hold no newline has no blank line. */
  lemma BlockNoBlankLine(w: Json, date: Json, title: Json, location: Json, start: Json, end: Json)
    requires '\n' !in Display(w) && '\n' !in Display(date) && '\n' !in Display(title)
    requires '\n' !in Display(location) && '\n' !in Display(start) && '\n' !in Display(end)
    ensures NoBlankLine(Block(w, date, title, location, start, end))
  {
    var lines := BlockLines(w, date, title, location, start, end);
    forall k | 0 <= k < |lines|
      ensures lines[k] != [] && '\n' !in lines[k]
    {
      LabelledLineHasNoNewline(w, date, title, location, start, end, k);
    }
    BlockIsJoinedLines(w, date, title, location, start, end);
    JoinLinesNoBlankLine(lines);
  }

  /** `[format_event(event) for event in events]`. */
  function FormatAll(events: seq<Json>): (r: Result<seq<string>, PyError>)
    ensures r.Success? ==> |r.value| == |events|
  {
    MapAll(FormatEvent, events)
  }

  /** One block per event, in input order; the comprehension raises exactly
      when some event lacks a key. */
  lemma FormatAllPerEvent(events: seq<Json>)
    ensures FormatAll(events).Success? <==> forall k :: 0 <= k < |events| ==> FormatEvent(events[k]).Success?
    ensures FormatAll(events).Success? ==>
      && |FormatAll(events).value| == |events|
      && forall k :: 0 <= k < |events| ==> FormatAll(events).value[k] == FormatEvent(events[k]).value
  {
    MapAllSuccess(FormatEvent, events);
    var f: Json -> Result<string, PyError> := FormatEvent;
    if !forall k :: 0 <= k < |events| ==> FormatEvent(events[k]).Success? {
      var k :| 0 <= k < |events| && !FormatEvent(events[k]).Success?;
      assert !f(events[k]).Success?;
    }
  }

  function Records(events: seq<EventParser.Event>): (rs: seq<Json>)
    ensures |rs| == |events|
  {
    seq(|events|, k requires 0 <= k < |events| => EventParser.EventRecord(events[k]))
  }

  /** Every parsed record formats, and the written programme of a
      non-empty list of parsed records splits back into one block per
      event, in order. */
  lemma FormatParsedProgramme(events: seq<EventParser.Event>)
    requires events != []
    requires forall k :: 0 <= k < |events| ==> EventParser.CleanEvent(events[k])
    ensures FormatAll(Records(events)).Success?
    ensures Split(WriteText(FormatAll(Records(events)).value), "\n\n") == FormatAll(Records(events)).value
    ensures |FormatAll(Records(events)).value| == |events|
  {
    var rs := Records(events);
    forall k | 0 <= k < |rs|
      ensures FormatEvent(rs[k]).Success?
    {
      FormatParsedRecord(events[k]);
    }
    FormatAllPerEvent(rs);
    var blocks := FormatAll(rs).value;
    forall k | 0 <= k < |blocks|
      ensures NoBlankLine(blocks[k])
    {
      ParsedRecordNoBlankLine(events[k]);
    }
    WrittenTextSplits(blocks);
  }
}

=== FILE: event_parser.dfy ===
/** data-scraping/transform-data.py: `parse_event_data` turns the plain-text
    programme (one event per blank-line-separated block) into event records. */
module EventParser {
  import opened Wrappers
  import opened PyStrings
  import opened PyJson
  import opened Sequences

  /** The text whose presence on a block's second line marks a bookable
      event. */
  const BookingMarker: string := "Evento su prenotazione"

  datatype Event = Event(
    date: string,
    title: string,
    location: string,
    startTime: string,
    endTime: string,
    warning: Option<string>)

  /** The dict the script appends for an event; `json.dump` writes a missing
      warning as null. */
  function EventRecord(e: Event): (r: Json)
    ensures r.Obj?
    ensures r.fields.Keys == {"date", "title", "location", "start_time", "end_time", "warning"}
    ensures forall k :: k in r.fields && k != "warning" ==> r.fields[k].Str?
    ensures r.fields["warning"] == Null <==> e.warning.None?
  {
    Obj(map[
      "date" := Str(e.date),
      "title" := Str(e.title),
      "location" := Str(e.location),
      "start_time" := Str(e.startTime),
      "end_time" := Str(e.endTime),
      "warning" := if e.warning.Some? then Str(e.warning.value) else Null])
  }

  /** Which line of a block holds the "start/end" times. */
  function TimeLineIndex(lines: seq<string>): nat
    requires |lines| >= 2
  {
    if Contains(lines[1], BookingMarker) then 5 else 4
  }

  /** What the loop body does with one block: the record, or the exception
      Python raises (IndexError for a missing line, ValueError when the
      time line does not unpack into exactly two pieces). */
  function ParseBlock(block: string): (r: Result<Event, PyError>)
    ensures r.Success? ==> |Split(block, "\n")| >= 5
  {
    ParseLines(Split(block, "\n"))
  }

  /** The record built from the lines of a block. */
  function ParseLines(lines: seq<string>): (r: Result<Event, PyError>)
    ensures |lines| < 2 ==> r == Failure(IndexError(1))
    ensures r.Success? ==> |lines| >= 5
  {
    if |lines| < 2 then Failure(IndexError(1))
    else
      var booked := Contains(lines[1], BookingMarker);
      var t := TimeLineIndex(lines);
      if |lines| <= t then Failure(IndexError(t))
      else
        var times := Split(lines[t], "/");
        if |times| != 2 then Failure(ValueError)
        else
          Success(Event(
            Strip(lines[0]),
            Strip(if booked then lines[2] else lines[1]),
            Strip(if booked then lines[3] else lines[2]),
            Strip(times[0]),
            Strip(times[1]),
            if booked then Some(Strip(lines[1])) else None))
  }

  /** Where a parsed record's fields come from: the date is always line 0
      stripped; with the booking marker on line 1, the warning is line 1
      stripped, title and location are lines 2 and 3 and the times line 5;
      without it, there is no warning, title and location are lines 1 and 2
      and the times line 4. The times are the stripped pieces around the
      single '/'. */
  lemma ParseLinesFields(lines: seq<string>)
    requires ParseLines(lines).Success?
    ensures var e := ParseLines(lines).value;
      && |lines| >= 5
      && e.date == Strip(lines[0])
      && (Contains(lines[1], BookingMarker) ==>
            && |lines| >= 6
            && e.warning == Some(Strip(lines[1]))
            && e.title == Strip(lines[2]) && e.location == Strip(lines[3])
            && |Split(lines[5], "/")| == 2
            && e.startTime == Strip(Split(lines[5], "/")[0]) && e.endTime == Strip(Split(lines[5], "/")[1]))
      && (!Contains(lines[1], BookingMarker) ==>
            && e.warning == None
            && e.title == Strip(lines[1]) && e.location == Strip(lines[2])
            && |Split(lines[4], "/")| == 2
            && e.startTime == Strip(Split(lines[4], "/")[0]) && e.endTime == Strip(Split(lines[4], "/")[1]))
  {
  }

  /** Parse each block in turn; the first exception ends the parse. */
  function ParseBlocks(blocks: seq<string>): (r: Result<seq<Event>, PyError>)
    ensures r.Success? ==> |r.value| == |blocks|
  {
    MapAll(ParseBlock, blocks)
  }

  /** The whole parse: strip the text, split it into blocks, parse each. */
  function ParseEvents(data: string): (r: Result<seq<Event>, PyError>)
    ensures r.Success? ==> |r.value| == |Split(Strip(data), "\n\n")|
  {
    ParseBlocks(Split(Strip(data), "\n\n"))
  }

  /** One pass of the loop body of `parse_event_data`: split the block into
      lines, look for the booking marker, unpack the time line and build the
      record. */
  method ParseOneEvent(event: string) returns (r: Result<Event, PyError>)
    ensures r == ParseBlock(event)
  {
    var lines := Split(event, "\n");
    if |lines| < 2 {
      return Failure(IndexError(1));
    }
    var warning: Option<string> := None;
    var startTime, endTime;
    if Contains(lines[1], BookingMarker) {
      warning := Some(Strip(lines[1]));
      if |lines| < 6 {
        return Failure(IndexError(5));
      }
      var pieces := Split(lines[5], "/");
      if |pieces| != 2 {
        return Failure(ValueError);
      }
      startTime, endTime := pieces[0], pieces[1];
    } else {
      if |lines| < 5 {
        return Failure(IndexError(4));
      }
      var pieces := Split(lines[4], "/");
      if |pieces| != 2 {
        return Failure(ValueError);
      }
      startTime, endTime := pieces[0], pieces[1];
    }
    r := Success(Event(
      Strip(lines[0]),
      if warning.None? then Strip(lines[1]) else Strip(lines[2]),
      if warning.None? then Strip(lines[2]) else Strip(lines[3]),
      Strip(startTime),
      Strip(endTime),
      warning));
  }

  /** `parse_event_data` after the file read: the records of the blocks, in
      order, or the exception of the first block that raises. */
  method ParseEventData(data: string) returns (r: Result<seq<Event>, PyError>)
    ensures r == ParseEvents(data)
  {
    var events := Split(Strip(data), "\n\n");
    r := ParseEachBlock(events);
  }

  /** The loop of `parse_event_data` over the blocks, appending one record
      per block. */
  method ParseEachBlock(events: seq<string>) returns (r: Result<seq<Event>, PyError>)
    ensures r == ParseBlocks(events)
  {
    var parsed: seq<Event> := [];
    var i := 0;
    while i < |events|
      invariant 0 <= i <= |events|
      invariant MapAll(ParseBlock, events[..i]) == Success(parsed)
    {
      var outcome := ParseOneEvent(events[i]);
      if outcome.Failure? {
        MapAllStopsAt(ParseBlock, events, i);
        return Failure(outcome.error);
      }
      MapAllGrow(ParseBlock, events, i, parsed, outcome.value);
      parsed := parsed + [outcome.value];
      i := i + 1;
    }
    assert events[..i] == events;
    assert MapAll(ParseBlock, events) == Success(parsed);
    r := Success(parsed);
  }

  /** How a block fails: too few lines is an IndexError at the first missing
      index the code reads; otherwise the block parses exactly when its time
      line holds a single '/', and fails with ValueError when it does not. */
  lemma ParseBlockOutcome(block: string)
    ensures var lines := Split(block, "\n");
      && (|lines| < 2 ==> ParseBlock(block) == Failure(IndexError(1)))
      && (|lines| >= 2 && |lines| <= TimeLineIndex(lines) ==>
            ParseBlock(block) == Failure(IndexError(TimeLineIndex(lines))))
      && (|lines| >= 2 && |lines| > TimeLineIndex(lines) ==>
            && (ParseBlock(block).Success? <==> multiset(lines[TimeLineIndex(lines)])['/'] == 1)
            && (ParseBlock(block).Failure? ==> ParseBlock(block) == Failure(ValueError)))
  {
    var lines := Split(block, "\n");
    if |lines| >= 2 && |lines| > TimeLineIndex(lines) {
      SplitCharCount(lines[TimeLineIndex(lines)], '/');
    }
  }

  /** A record field as the parser leaves it: stripped and on one line. */
  predicate CleanField(s: string) {
    IsStripped(s) && '\n' !in s
  }

  predicate CleanEvent(e: Event) {
    && CleanField(e.date) && CleanField(e.title) && CleanField(e.location)
    && CleanField(e.startTime) && CleanField(e.endTime)
    && (e.warning.Some? ==> CleanField(e.warning.value))
  }

  /** Every field of a parsed record is stripped and free of newlines, and a
      record carries a warning exactly when its block's second line holds the
      booking marker. */
  lemma ParsedEventClean(block: string)
    requires ParseBlock(block).Success?
    ensures CleanEvent(ParseBlock(block).value)
    ensures ParseBlock(block).value.warning.Some? <==> Contains(Split(block, "\n")[1], BookingMarker)
  {
    var lines := Split(block, "\n");
    SplitPiecesAvoidSep(block, "\n");
    forall k | 0 <= k < |lines|
      ensures '\n' !in lines[k]
    {
      ContainsChar(lines[k], '\n');
    }
    var t := TimeLineIndex(lines);
    SplitPiecesKeepAbsent(lines[t], "/", '\n');
    var times := Split(lines[t], "/");
    StripKeepsAbsent(lines[0], '\n');
    StripKeepsAbsent(lines[1], '\n');
    StripKeepsAbsent(lines[2], '\n');
    StripKeepsAbsent(lines[3], '\n');
    StripKeepsAbsent(times[0], '\n');
    StripKeepsAbsent(times[1], '\n');
  }

  /** One record per block, in block order: the parse of a list of blocks
      succeeds exactly when every block parses. */
  lemma ParseBlocksPerBlock(blocks: seq<string>)
    ensures ParseBlocks(blocks).Success? <==> forall k :: 0 <= k < |blocks| ==> ParseBlock(blocks[k]).Success?
    ensures ParseBlocks(blocks).Success? ==> |ParseBlocks(blocks).value| == |blocks|
    ensures ParseBlocks(blocks).Success? ==>
      forall k :: 0 <= k < |blocks| ==> ParseBlocks(blocks).value[k] == ParseBlock(blocks[k]).value
  {
    MapAllSuccess(ParseBlock, blocks);
    var f: string -> Result<Event, PyError> := ParseBlock;
    if !forall k :: 0 <= k < |blocks| ==> ParseBlock(blocks[k]).Success? {
      var k :| 0 <= k < |blocks| && !ParseBlock(blocks[k]).Success?;
      assert !f(blocks[k]).Success?;
    }
  }

  /** A failing parse reports the error of the first block that fails. */
  lemma ParseBlocksFirstError(blocks: seq<string>)
    requires ParseBlocks(blocks).Failure?
    ensures exists k :: (0 <= k < |blocks| && ParseBlock(blocks[k]) == Failure(ParseBlocks(blocks).error)
                         && forall j :: 0 <= j < k ==> ParseBlock(blocks[j]).Success?)
  {
    MapAllFailure(ParseBlock, blocks);
    var f: string -> Result<Event, PyError> := ParseBlock;
    var k :| 0 <= k < |blocks| && f(blocks[k]) == Failure(MapAll(f, blocks).error)
      && forall j :: 0 <= j < k ==> f(blocks[j]).Success?;
    assert ParseBlock(blocks[k]) == f(blocks[k]);
    assert forall j :: 0 <= j < k ==> ParseBlock(blocks[j]) == f(blocks[j]);
  }

  /** Empty or whitespace-only input is a single empty block, which has no
      line 1. */
  lemma BlankInputFails(data: string)
    requires AllSpace(data)
    ensures ParseEvents(data) == Failure(IndexError(1))
  {
    StripIsTrim(data);
    assert Strip(data) == [];
    assert Find([], "\n\n") == None;
    assert Split([], "\n\n") == [[]];
    assert Find([], "\n") == None;
    assert Split([], "\n") == [[]];
    MapAllStopsAt(ParseBlock, [[]], 0);
  }

  /** The lines of a block in the shape the parser reads: date, the booking
      line when there is one, title, location, a line the parser skips, and
      "start/end". */
  function RenderLines(e: Event, note: string): seq<string> {
    var times := e.startTime + "/" + e.endTime;
    if e.warning.Some? then [e.date, e.warning.value, e.title, e.location, note, times]
    else [e.date, e.title, e.location, note, times]
  }

  function RenderBlock(e: Event, note: string): string {
    Join("\n", RenderLines(e, note))
  }

  function RenderText(events: seq<Event>, notes: seq<string>): string
    requires |events| == |notes|
  {
    Join("\n\n", RenderBlocks(events, notes))
  }

  /** An event that the programme text can express: every field clean and
      non-empty, no '/' in the times, and the booking marker in the warning
      exactly when there is one. */
  predicate Renderable(e: Event, note: string) {
    && CleanEvent(e)
    && e.date != [] && e.title != [] && e.location != [] && e.startTime != [] && e.endTime != []
    && (e.warning.Some? ==> e.warning.value != [] && Contains(e.warning.value, BookingMarker))
    && (e.warning.None? ==> !Contains(e.title, BookingMarker))
    && note != [] && '\n' !in note
    && '/' !in e.startTime && '/' !in e.endTime
  }

  /** The rendered lines are non-empty and free of newlines; the first is
      the date and the last ends with the end time. */
  lemma RenderLinesClean(e: Event, note: string)
    requires Renderable(e, note)
    ensures var lines := RenderLines(e, note);
      && (forall k :: 0 <= k < |lines| ==> lines[k] != [] && '\n' !in lines[k])
      && lines[0] == e.date
      && lines[|lines| - 1] == e.startTime + "/" + e.endTime
  {
    var lines := RenderLines(e, note);
    forall k | 0 <= k < |lines|
      ensures lines[k] != [] && '\n' !in lines[k]
    {
      if k == |lines| - 1 {
        assert lines[k] == e.startTime + "/" + e.endTime;
      }
    }
  }

  lemma RenderedBlockShape(e: Event, note: string)
    requires Renderable(e, note)
    ensures var b := RenderBlock(e, note);
      && Split(b, "\n") == RenderLines(e, note)
      && NoBlankLine(b)
      && b != [] && b[0] == e.date[0] && b[|b| - 1] == e.endTime[|e.endTime| - 1]
  {
    var lines := RenderLines(e, note);
    RenderLinesClean(e, note);
    SplitJoinedLines(lines);
    JoinLinesNoBlankLine(lines);
    JoinFirst("\n", lines);
    JoinLast("\n", lines);
    var times := e.startTime + "/" + e.endTime;
    assert times[|times| - 1] == e.endTime[|e.endTime| - 1];
  }

  /** Parsing a block rendered from an event gives the event back. */
  lemma ParseRenderedBlock(e: Event, note: string)
    requires Renderable(e, note)
    ensures ParseBlock(RenderBlock(e, note)) == Success(e)
  {
    RenderedBlockShape(e, note);
    RenderedBookingLine(e, note);
    ParseRenderedLines(e, note);
  }

  /** The time line "start/end" splits on its single '/'. */
  lemma SplitTimes(startTime: string, endTime: string)
    requires '/' !in startTime && '/' !in endTime
    ensures Split(startTime + "/" + endTime, "/") == [startTime, endTime]
  {
    assert Join("/", [startTime, endTime]) == startTime + "/" + endTime;
    NoEarlySepChar(startTime, '/');
    NoEarlySepChar(endTime, '/');
    SplitJoin([startTime, endTime], "/");
  }

  /** The parser finds the booking marker on a rendered block's second line
      exactly when the event has a warning, and reads the times from the
      last line. */
  lemma RenderedBookingLine(e: Event, note: string)
    requires Renderable(e, note)
    ensures var lines := RenderLines(e, note);
      && (Contains(lines[1], BookingMarker) <==> e.warning.Some?)
      && TimeLineIndex(lines) == |lines| - 1
  {
  }

  /** A block whose second line carries the booking marker and whose sixth
      and last line splits into the record's times parses to the record
      whose fields are the stripped lines. */
  lemma ParseBookedLines(lines: seq<string>, e: Event)
    requires |lines| == 6 && Contains(lines[1], BookingMarker) && e.warning.Some?
    requires Split(lines[5], "/") == [e.startTime, e.endTime]
    requires Strip(lines[0]) == e.date && Strip(lines[1]) == e.warning.value
    requires Strip(lines[2]) == e.title && Strip(lines[3]) == e.location
    requires Strip(e.startTime) == e.startTime && Strip(e.endTime) == e.endTime
    ensures ParseLines(lines) == Success(e)
  {
  }

  /** The same for a block without the marker, whose fifth and last line
      holds the times. */
  lemma ParsePlainLines(lines: seq<string>, e: Event)
    requires |lines| == 5 && !Contains(lines[1], BookingMarker) && e.warning.None?
    requires Split(lines[4], "/") == [e.startTime, e.endTime]
    requires Strip(lines[0]) == e.date && Strip(lines[1]) == e.title && Strip(lines[2]) == e.location
    requires Strip(e.startTime) == e.startTime && Strip(e.endTime) == e.endTime
    ensures ParseLines(lines) == Success(e)
  {
  }

  /** Where each field sits among the rendered lines. */
  lemma RenderedLinePositions(e: Event, note: string)
    ensures var lines := RenderLines(e, note);
      && lines[0] == e.date && lines[|lines| - 1] == e.startTime + "/" + e.endTime
      && (e.warning.Some? ==>
            |lines| == 6 && lines[1] == e.warning.value && lines[2] == e.title && lines[3] == e.location)
      && (e.warning.None? ==> |lines| == 5 && lines[1] == e.title && lines[2] == e.location)
  {
  }

  lemma ParseRenderedLines(e: Event, note: string)
    requires CleanEvent(e) && '/' !in e.startTime && '/' !in e.endTime
    requires Contains(RenderLines(e, note)[1], BookingMarker) <==> e.warning.Some?
    ensures ParseLines(RenderLines(e, note)) == Success(e)
  {
    RenderedLinePositions(e, note);
    SplitTimes(e.startTime, e.endTime);
    StripCleanEvent(e);
    if e.warning.Some? {
      ParseBookedLines(RenderLines(e, note), e);
    } else {
      ParsePlainLines(RenderLines(e, note), e);
    }
  }

  /** Stripping leaves every field of a clean record unchanged. */
  lemma StripCleanEvent(e: Event)
    requires CleanEvent(e)
    ensures Strip(e.date) == e.date && Strip(e.title) == e.title && Strip(e.location) == e.location
    ensures Strip(e.startTime) == e.startTime && Strip(e.endTime) == e.endTime
    ensures e.warning.Some? ==> Strip(e.warning.value) == e.warning.value
  {
  }

  function RenderBlocks(events: seq<Event>, notes: seq<string>): (blocks: seq<string>)
    requires |events| == |notes|
    ensures |blocks| == |events|
  {
    seq(|events|, k requires 0 <= k < |events| => RenderBlock(events[k], notes[k]))
  }

  /** A rendered block starts with the date and ends with the end time, so
      neither end is whitespace. */
  lemma RenderedBlockStripped(e: Event, note: string)
    requires Renderable(e, note)
    ensures IsStripped(RenderBlock(e, note)) && RenderBlock(e, note) != []
  {
    RenderedBlockShape(e, note);
  }

  /** The rendered programme starts with the first event's date and ends
      with the last event's end time, so stripping leaves it unchanged. */
  lemma RenderedTextStripped(events: seq<Event>, notes: seq<string>)
    requires |events| == |notes| > 0
    requires Renderable(events[0], notes[0])
    requires Renderable(events[|events| - 1], notes[|events| - 1])
    ensures Strip(RenderText(events, notes)) == RenderText(events, notes)
  {
    var blocks := RenderBlocks(events, notes);
    var n := |events| - 1;
    assert blocks[0] == RenderBlock(events[0], notes[0]);
    assert blocks[n] == RenderBlock(events[n], notes[n]);
    RenderedBlockStripped(events[0], notes[0]);
    RenderedBlockStripped(events[n], notes[n]);
    JoinStripped("\n\n", blocks);
  }

  /** The rendered programme splits back into its blocks. */
  lemma RenderedTextSplits(events: seq<Event>, notes: seq<string>)
    requires |events| == |notes| > 0
    requires forall k :: 0 <= k < |events| ==> Renderable(events[k], notes[k])
    ensures Split(RenderText(events, notes), "\n\n") == RenderBlocks(events, notes)
  {
    var blocks := RenderBlocks(events, notes);
    forall k | 0 <= k < |blocks|
      ensures NoEarlySep(blocks[k], "\n\n")
    {
      RenderedBlockShape(events[k], notes[k]);
      NoBlankLineNoEarlySep(blocks[k]);
    }
    SplitJoin(blocks, "\n\n");
  }

  /** Parsing a programme rendered from a non-empty list of events gives the
      list back: one record per block, in order. */
  lemma ParseRenderedText(events: seq<Event>, notes: seq<string>)
    requires |events| == |notes| > 0
    requires forall k :: 0 <= k < |events| ==> Renderable(events[k], notes[k])
    ensures ParseEvents(RenderText(events, notes)) == Success(events)
  {
    var blocks := RenderBlocks(events, notes);
    RenderedTextStripped(events, notes);
    RenderedTextSplits(events, notes);
    forall k | 0 <= k < |blocks|
      ensures ParseBlock(blocks[k]) == Success(events[k])
    {
      ParseRenderedBlock(events[k], notes[k]);
    }
    ParseEachGives(blocks, events);
  }

  /** Blocks that each parse to their event parse to the list of events. */
  lemma ParseEachGives(blocks: seq<string>, events: seq<Event>)
    requires |blocks| == |events|
    requires forall k :: 0 <= k < |blocks| ==> ParseBlock(blocks[k]) == Success(events[k])
    ensures ParseBlocks(blocks) == Success(events)
  {
    var f: string -> Result<Event, PyError> := ParseBlock;
    assert forall k :: 0 <= k < |blocks| ==> f(blocks[k]) == Success(events[k]);
    MapAllSuccess(f, blocks);
    assert MapAll(f, blocks).value == events;
  }
}

=== FILE: navigator.dfy ===
/** navigator.py: the GeoJSON features of the chosen dataset become map
    records, the amenity categories feed the sidebar filter, and a point
    drawn on the map becomes the destination. */
module Navigator {
  import opened Wrappers
  import opened PyJson
  import opened Sequences

  /** A row of the data frame built from one feature. Coordinates are kept
      as the JSON values they are and never computed with. */
  datatype Place = Place(latitude: Json, longitude: Json, properties: Json)

  /** The category a feature is listed and filtered under. */
  const DefaultAmenity: Json := Str("Sconosciuto")

  /** The loop body of the extraction: `latitude` is `coordinates[1]` and
      `longitude` is `coordinates[0]`, read in that order. */
  function PlaceOf(feature: Json): (r: Result<Place, PyError>)
    ensures r.Success? ==>
      feature.Obj? && "properties" in feature.fields && r.value.properties == feature.fields["properties"]
  {
    var properties :- Lookup(feature, "properties");
    var geometry :- Lookup(feature, "geometry");
    var coordinates :- Lookup(geometry, "coordinates");
    var latitude :- Index(coordinates, 1);
    // `coordinates[0]` cannot raise once `coordinates[1]` has not.
    Success(Place(latitude, coordinates.items[0], properties))
  }

  /** A GeoJSON feature of the usual shape: properties and a geometry whose
      position is written [longitude, latitude], as section 3.1.1 of
      RFC 7946 lays it out. */
  function Feature(properties: Json, lon: Json, lat: Json, extra: seq<Json>): Json {
    Obj(map[
      "type" := Str("Feature"),
      "properties" := properties,
      "geometry" := Obj(map["type" := Str("Point"), "coordinates" := Arr([lon, lat] + extra)])])
  }

  /** The extraction swaps the position back to (latitude, longitude). */
  lemma PlaceOfSwapsPosition(properties: Json, lon: Json, lat: Json, extra: seq<Json>)
    ensures PlaceOf(Feature(properties, lon, lat, extra)) == Success(Place(lat, lon, properties))
  {
    assert ([lon, lat] + extra)[1] == lat;
    assert ([lon, lat] + extra)[0] == lon;
  }

  /** How a feature fails: no `properties`, no `geometry`, no
      `coordinates`, or fewer than two coordinates. */
  lemma PlaceOfErrors(feature: Json)
    requires feature.Obj?
    ensures "properties" !in feature.fields ==> PlaceOf(feature) == Failure(KeyError("properties"))
    ensures "properties" in feature.fields && "geometry" !in feature.fields ==>
      PlaceOf(feature) == Failure(KeyError("geometry"))
    ensures ("properties" in feature.fields && "geometry" in feature.fields
             && feature.fields["geometry"].Obj? && "coordinates" in feature.fields["geometry"].fields
             && feature.fields["geometry"].fields["coordinates"].Arr?) ==>
      var coordinates := feature.fields["geometry"].fields["coordinates"].items;
      && (|coordinates| < 2 ==> PlaceOf(feature) == Failure(IndexError(1)))
      && (|coordinates| >= 2 ==> PlaceOf(feature) == Success(Place(coordinates[1], coordinates[0], feature.fields["properties"])))
  {
  }

  /** The features of the loaded document, one place per feature. */
  function Extract(geojson: Json): (r: Result<seq<Place>, PyError>)
    ensures r.Success? ==>
      && geojson.Obj? && "features" in geojson.fields && geojson.fields["features"].Arr?
      && |r.value| == |geojson.fields["features"].items|
  {
    var features :- Lookup(geojson, "features");
    if features.Arr? then MapAll(PlaceOf, features.items) else Failure(TypeError)
  }

  /** The loop of lines 31-39: append one record per feature. */
  method ExtractPlaces(geojson: Json) returns (r: Result<seq<Place>, PyError>)
    ensures r == Extract(geojson)
  {
    var lookup := Lookup(geojson, "features");
    if lookup.Failure? {
      return Failure(lookup.error);
    }
    var features := lookup.value;
    if !features.Arr? {
      return Failure(TypeError);
    }
    var items := features.items;
    var data: seq<Place> := [];
    var i := 0;
    while i < |items|
      invariant 0 <= i <= |items|
      invariant MapAll(PlaceOf, items[..i]) == Success(data)
    {
      var place := PlaceOf(items[i]);
      if place.Failure? {
        MapAllStopsAt(PlaceOf, items, i);
        return Failure(place.error);
      }
      MapAllStep(PlaceOf, items, i);
      data := data + [place.value];
      i := i + 1;
    }
    assert items[..i] == items;
    r := Success(data);
  }

  /** One record per feature, in feature order; the extraction fails
      exactly when some feature does. */
  lemma ExtractPerFeature(features: seq<Json>)
    ensures MapAll(PlaceOf, features).Success? <==> forall k :: 0 <= k < |features| ==> PlaceOf(features[k]).Success?
    ensures MapAll(PlaceOf, features).Success? ==>
      && |MapAll(PlaceOf, features).value| == |features|
      && forall k :: 0 <= k < |features| ==> MapAll(PlaceOf, features).value[k] == PlaceOf(features[k]).value
  {
    MapAllSuccess(PlaceOf, features);
    var f: Json -> Result<Place, PyError> := PlaceOf;
    if !forall k :: 0 <= k < |features| ==> PlaceOf(features[k]).Success? {
      var k :| 0 <= k < |features| && !PlaceOf(features[k]).Success?;
      assert !f(features[k]).Success?;
    }
  }

  /** `x.get("amenity", "Sconosciuto")` on a record's properties. */
  function CategoryOf(place: Place): (r: Result<Json, PyError>)
    ensures r.Success? <==> place.properties.Obj?
  {
    Get(place.properties, "amenity", DefaultAmenity)
  }

  /** A feature without an amenity is categorised "Sconosciuto"; one with
      an amenity, by it. */
  lemma CategoryDefault(place: Place)
    requires place.properties.Obj?
    ensures "amenity" !in place.properties.fields ==> CategoryOf(place) == Success(DefaultAmenity)
    ensures "amenity" in place.properties.fields ==> CategoryOf(place) == Success(place.properties.fields["amenity"])
  {
  }

  /** The option list of line 44: the distinct categories in order of first
      appearance. A frame built from no records has no `properties`
      column. */
  function Amenities(places: seq<Place>): (r: Result<seq<Json>, PyError>)
    ensures places == [] ==> r == Failure(KeyError("properties"))
    ensures r.Success? ==> NoDuplicates(r.value)
  {
    if places == [] then Failure(KeyError("properties"))
    else
      var categories :- MapAll(CategoryOf, places);
      Success(Distinct(categories))
  }

  /** The option list holds each category of the records exactly once, and
      nothing else. */
  lemma AmenitiesAreDistinctCategories(places: seq<Place>)
    requires Amenities(places).Success?
    ensures NoDuplicates(Amenities(places).value)
    ensures forall k :: 0 <= k < |places| ==> CategoryOf(places[k]).Success?
    ensures forall k :: 0 <= k < |places| ==> CategoryOf(places[k]).value in Amenities(places).value
    ensures forall c :: c in Amenities(places).value ==> exists k :: 0 <= k < |places| && CategoryOf(places[k]).value == c
  {
    var f: Place -> Result<Json, PyError> := CategoryOf;
    MapAllSuccess(f, places);
    var categories := MapAll(f, places).value;
    forall k | 0 <= k < |places|
      ensures CategoryOf(places[k]).Success? && CategoryOf(places[k]).value == categories[k]
    {
      assert f(places[k]).Success?;
    }
    forall c | c in Amenities(places).value
      ensures exists k :: 0 <= k < |places| && CategoryOf(places[k]).value == c
    {
      var k :| 0 <= k < |categories| && categories[k] == c;
      assert CategoryOf(places[k]).value == c;
    }
  }

  /** The membership test of line 52. */
  function Selected(selected: seq<Json>): Place -> Result<bool, PyError> {
    place => var c :- CategoryOf(place); Success(c in selected)
  }

  /** The filtered frame of line 52. */
  function SelectPlaces(places: seq<Place>, selected: seq<Json>): (r: Result<seq<Place>, PyError>)
    ensures places == [] ==> r == Failure(KeyError("properties"))
    ensures r.Success? ==> |r.value| <= |places|
    ensures r.Success? ==> forall k :: 0 <= k < |r.value| ==>
      CategoryOf(r.value[k]).Success? && CategoryOf(r.value[k]).value in selected
  {
    if places == [] then Failure(KeyError("properties"))
    else FilterAll(Selected(selected), places)
  }

  /** The filter keeps exactly the records whose category is selected, in
      their order and with their multiplicity. */
  lemma SelectPlacesKeeps(places: seq<Place>, selected: seq<Json>)
    requires SelectPlaces(places, selected).Success?
    ensures IsSubsequence(SelectPlaces(places, selected).value, places)
    ensures forall p :: (multiset(SelectPlaces(places, selected).value)[p] ==
                         if CategoryOf(p).Success? && CategoryOf(p).value in selected then multiset(places)[p] else 0)
  {
    FilterAllSelects(Selected(selected), places);
    forall p
      ensures Selected(selected)(p) == Success(true) <==> CategoryOf(p).Success? && CategoryOf(p).value in selected
    {
    }
  }

  /** With the default selection, every category, the filter keeps every
      record. */
  lemma DefaultSelectionKeepsAll(places: seq<Place>)
    requires Amenities(places).Success?
    ensures SelectPlaces(places, Amenities(places).value) == Success(places)
  {
    var options := Amenities(places).value;
    AmenitiesAreDistinctCategories(places);
    forall k | 0 <= k < |places|
      ensures Selected(options)(places[k]) == Success(true)
    {
    }
    FilterAllKeepsPassing(Selected(options), places);
  }

  /** The drawn-object check of lines 84-88: nothing unless the last drawn
      object is a 'Point', whose coordinates are taken as they are. */
  function Destination(lastObject: Json): (r: Result<Option<seq<Json>>, PyError>)
    ensures r.Success? && r.value.Some? ==>
      && lastObject.Obj? && "geometry" in lastObject.fields
      && Lookup(lastObject.fields["geometry"], "type") == Success(Str("Point"))
  {
    if !Truthy(lastObject) then Success(None)
    else if !lastObject.Obj? then Failure(TypeError)
    else if "geometry" !in lastObject.fields then Success(None)
    else
      var geometry := lastObject.fields["geometry"];
      var kind :- Lookup(geometry, "type");
      if kind != Str("Point") then Success(None)
      else
        var coordinates :- Lookup(geometry, "coordinates");
        if coordinates.Arr? then Success(Some(coordinates.items)) else Failure(TypeError)
  }

  /** A drawn object that is a dict whose geometry is a 'Point' with a list
      of coordinates gives those coordinates as they are, whatever other
      members it carries. */
  lemma DestinationIsRawCoordinates(lastObject: Json)
    requires Truthy(lastObject) && lastObject.Obj? && "geometry" in lastObject.fields
    requires lastObject.fields["geometry"].Obj?
    requires "type" in lastObject.fields["geometry"].fields
    requires lastObject.fields["geometry"].fields["type"] == Str("Point")
    requires "coordinates" in lastObject.fields["geometry"].fields
    requires lastObject.fields["geometry"].fields["coordinates"].Arr?
    ensures Destination(lastObject) == Success(Some(lastObject.fields["geometry"].fields["coordinates"].items))
  {
  }

  /** A drawn GeoJSON point keeps its [longitude, latitude] order: unlike
      the extracted places, the destination is not swapped. */
  lemma DestinationKeepsOrder(properties: Json, lon: Json, lat: Json)
    ensures Destination(Feature(properties, lon, lat, [])) == Success(Some([lon, lat]))
    ensures PlaceOf(Feature(properties, lon, lat, [])) == Success(Place(lat, lon, properties))
  {
    var drawn := Feature(properties, lon, lat, []);
    assert [lon, lat] + [] == [lon, lat];
    assert "type" in drawn.fields;
    DestinationIsRawCoordinates(drawn);
    PlaceOfSwapsPosition(properties, lon, lat, []);
  }

  /** Any other geometry is ignored. */
  lemma NonPointIgnored(lastObject: Json)
    requires lastObject.Obj? && "geometry" in lastObject.fields
    requires Lookup(lastObject.fields["geometry"], "type").Success?
    requires Lookup(lastObject.fields["geometry"], "type").value != Str("Point")
    ensures Destination(lastObject) == Success(None)
  {
  }
}

=== FILE: pyjson.dfy ===
/** Values that `json.load` produces, the Python exceptions the scripts can
    raise while reading them, and the few operations on them the scripts
    use: `d[key]`, `d.get(key, default)`, `xs[i]`, truthiness and `str()`. */
module PyJson {
  import opened Wrappers
  import opened PyStrings

  /** A JSON value as loaded by Python. A non-integral number is kept as its
      source text and never computed with. */
  datatype Json =
    | Null
    | Bool(b: bool)
    | Int(i: int)
    | Float(text: string)
    | Str(s: string)
    | Arr(items: seq<Json>)
    | Obj(fields: map<string, Json>)

  /** The exceptions the modelled code can raise. */
  datatype PyError =
    | KeyError(key: string)        // missing dict key
    | IndexError(index: nat)       // list index out of range
    | TypeError                    // subscript or item assignment on the wrong kind of value
    | AttributeError(name: string) // method called on a value that lacks it
    | ValueError                   // unpacking a list of the wrong length

  /** `v[key]` for a string key. */
  function Lookup(v: Json, key: string): (r: Result<Json, PyError>)
    ensures r.Success? <==> v.Obj? && key in v.fields
    ensures r.Success? ==> r.value == v.fields[key]
    ensures v.Obj? && key !in v.fields ==> r == Failure(KeyError(key))
  {
    match v
    case Obj(m) => if key in m then Success(m[key]) else Failure(KeyError(key))
    case _ => Failure(TypeError)
  }

  /** `v[i]` for a non-negative integer index on a list. */
  function Index(v: Json, i: nat): (r: Result<Json, PyError>)
    ensures r.Success? <==> v.Arr? && i < |v.items|
    ensures r.Success? ==> r.value == v.items[i]
    ensures v.Arr? && i >= |v.items| ==> r == Failure(IndexError(i))
  {
    match v
    case Arr(xs) => if i < |xs| then Success(xs[i]) else Failure(IndexError(i))
    case _ => Failure(TypeError)
  }

  /** `v.get(key, default)`, which only dicts have. */
  function Get(v: Json, key: string, default: Json): (r: Result<Json, PyError>)
    ensures r.Success? <==> v.Obj?
    ensures v.Obj? && key in v.fields ==> r == Success(v.fields[key])
    ensures v.Obj? && key !in v.fields ==> r == Success(default)
  {
    match v
    case Obj(m) => Success(if key in m then m[key] else default)
    case _ => Failure(AttributeError("get"))
  }

  /** A float literal denotes zero when no digit 1-9 occurs before its
      exponent. */
  predicate IsZeroFloat(text: string) {
    forall i :: 0 <= i < |text| && (forall j :: 0 <= j < i ==> text[j] != 'e' && text[j] != 'E') ==>
      !('1' <= text[i] <= '9')
  }

  /** Python's `bool(v)`: None, False, zero and the empty string, list and
      dict are false, every other value is true. */
  predicate Truthy(v: Json)
    ensures v == Null || v == Bool(false) || v == Int(0) || v == Float("0.0") ==> !Truthy(v)
    ensures v == Str([]) || v == Arr([]) || v == Obj(map[]) ==> !Truthy(v)
    ensures v.Str? && v.s != [] ==> Truthy(v)
    ensures v.Int? && v.i != 0 ==> Truthy(v)
  {
    match v
    case Null => false
    case Bool(b) => b
    case Int(i) => i != 0
    case Float(t) => !IsZeroFloat(t)
    case Str(s) => s != []
    case Arr(xs) => xs != []
    case Obj(m) => m != map[]
  }

  function DigitChar(d: nat): (c: char)
    requires d < 10
    ensures '0' <= c <= '9'
  {
    "0123456789"[d]
  }

  /** The decimal digits of `n`, most significant first. */
  function NatToDecimal(n: nat): (r: string)
    ensures r != []
    ensures forall i :: 0 <= i < |r| ==> '0' <= r[i] <= '9'
  {
    if n < 10 then [DigitChar(n)] else NatToDecimal(n / 10) + [DigitChar(n % 10)]
  }

  /** What an f-string placeholder `{v}` shows for a scalar value. */
  function Display(v: Json): (r: string)
    ensures v.Str? ==> r == v.s
  {
    match v
    case Null => "None"
    case Bool(b) => if b then "True" else "False"
    case Int(i) => if i < 0 then "-" + NatToDecimal(-i) else NatToDecimal(i)
    case Float(t) => t
    case Str(s) => s
    case Arr(_) => []
    case Obj(_) => []
  }
}

=== FILE: pystrings.dfy ===
/** The handful of Python `str` operations the scripts rely on, with their
    semantics stated: `str.isspace`, `str.strip()`, `sub in s`,
    `str.split(sep)`, `sep.join(parts)` and `str.lower()`. */
module PyStrings {
  import opened Wrappers

  /** The characters for which Python's `str.isspace()` holds; `str.strip()`
      with no argument removes exactly these. */
  predicate IsSpace(c: char) {
    || ('\t' <= c <= '\r')          // \t \n \v \f \r
    || ('\U{1C}' <= c <= ' ')       // the four separators \x1c..\x1f and the space
    || c == '\U{85}' || c == '\U{A0}' || c == '\U{1680}'
    || ('\U{2000}' <= c <= '\U{200A}')
    || c == '\U{2028}' || c == '\U{2029}' || c == '\U{202F}'
    || c == '\U{205F}' || c == '\U{3000}'
  }

  predicate AllSpace(s: string) {
    forall i :: 0 <= i < |s| ==> IsSpace(s[i])
  }

  /** Neither end of `s` is whitespace: `strip()` would leave it alone. */
  predicate IsStripped(s: string) {
    s == [] || (!IsSpace(s[0]) && !IsSpace(s[|s| - 1]))
  }

  /** `r` is `s` with the whitespace run of length `i` cut from the front and
      a whitespace run cut from the back. */
  ghost predicate TrimAt(r: string, s: string, i: int) {
    && 0 <= i <= |s| - |r|
    && r == s[i..i + |r|]
    && AllSpace(s[..i])
    && AllSpace(s[i + |r|..])
  }

  ghost predicate IsTrimOf(r: string, s: string) {
    exists i :: TrimAt(r, s, i)
  }

  function LStrip(s: string): (r: string)
    ensures |r| <= |s| && r == s[|s| - |r|..]
    ensures AllSpace(s[..|s| - |r|])
    ensures r == [] || !IsSpace(r[0])
  {
    if |s| > 0 && IsSpace(s[0]) then
      var r := LStrip(s[1..]);
      var n := |s| - |r|;
      assert forall i :: 1 <= i < n ==> s[..n][i] == s[1..][..n - 1][i - 1];
      r
    else
      s
  }

  function RStrip(s: string): (r: string)
    ensures |r| <= |s| && r == s[..|r|]
    ensures AllSpace(s[|r|..])
    ensures r == [] || !IsSpace(r[|r| - 1])
  {
    if |s| > 0 && IsSpace(s[|s| - 1]) then
      var r := RStrip(s[..|s| - 1]);
      assert s[..|s| - 1][..|r|] == s[..|r|];
      assert s[|r|..] == s[..|s| - 1][|r|..] + [s[|s| - 1]];
      r
    else
      s
  }

  /** Python `s.strip()`. */
  function Strip(s: string): (r: string)
    ensures IsStripped(r)
    ensures IsStripped(s) ==> r == s
  {
    RStrip(LStrip(s))
  }

  /** `strip()` cuts a whitespace run from each end and nothing else; it
      leaves nothing exactly when the text is all whitespace. */
  lemma StripIsTrim(s: string)
    ensures IsTrimOf(Strip(s), s)
    ensures Strip(s) == [] <==> AllSpace(s)
  {
    var l := LStrip(s);
    var r := RStrip(l);
    var i := |s| - |l|;
    assert r == s[i..i + |r|];
    assert s[i + |r|..] == l[|r|..];
    assert TrimAt(r, s, i);
    if r == [] {
      assert s[..i] == s;
    }
  }

  lemma StripKeepsAbsent(s: string, c: char)
    requires c !in s
    ensures c !in Strip(s)
  {
    var l := LStrip(s);
    SliceKeepsAbsent(s, |s| - |l|, |s|, c);
    SliceKeepsAbsent(l, 0, |RStrip(l)|, c);
  }

  lemma SliceKeepsAbsent(s: string, i: nat, j: nat, c: char)
    requires i <= j <= |s| && c !in s
    ensures c !in s[i..j]
  {
    assert forall k :: 0 <= k < j - i ==> s[i..j][k] == s[i + k];
  }

  /** `sub` occurs in `s` starting at index `i`. */
  predicate OccursAt(s: string, sub: string, i: int) {
    0 <= i && i + |sub| <= |s| && s[i..i + |sub|] == sub
  }

  /** The first occurrence of `sub` in `s` at or after `from` (Python's
      `s.find(sub, from)`, with None for -1). */
  function FindFrom(s: string, sub: string, from: nat): (r: Option<nat>)
    requires from <= |s|
    decreases |s| - from
    ensures r.Some? ==> from <= r.value && OccursAt(s, sub, r.value)
    ensures r.Some? ==> forall j :: from <= j < r.value ==> !OccursAt(s, sub, j)
    ensures r.None? ==> forall j :: from <= j ==> !OccursAt(s, sub, j)
  {
    if from + |sub| > |s| then None
    else if s[from..from + |sub|] == sub then Some(from)
    else FindFrom(s, sub, from + 1)
  }

  function Find(s: string, sub: string): (r: Option<nat>)
    ensures r.Some? ==> OccursAt(s, sub, r.value)
    ensures r.Some? ==> forall j :: 0 <= j < r.value ==> !OccursAt(s, sub, j)
    ensures r.None? ==> forall j :: !OccursAt(s, sub, j)
  {
    FindFrom(s, sub, 0)
  }

  /** Python `sub in s`. */
  predicate Contains(s: string, sub: string) {
    Find(s, sub).Some?
  }

  lemma ContainsIff(s: string, sub: string)
    ensures Contains(s, sub) <==> exists i :: OccursAt(s, sub, i)
  {
  }

  lemma ContainsChar(s: string, c: char)
    ensures Contains(s, [c]) <==> c in s
  {
    ContainsIff(s, [c]);
    if c in s {
      var k :| 0 <= k < |s| && s[k] == c;
      assert OccursAt(s, [c], k);
    }
    if Contains(s, [c]) {
      var k :| OccursAt(s, [c], k);
      assert s[k] == s[k..k + 1][0] == c;
    }
  }

  /** A word that contains `inner` at offset `k`: any text containing the
      word contains `inner` too. */
  lemma ContainsThrough(s: string, word: string, inner: string, k: nat)
    requires OccursAt(word, inner, k)
    requires Contains(s, word)
    ensures Contains(s, inner)
  {
    ContainsIff(s, word);
    var i :| OccursAt(s, word, i);
    forall t | 0 <= t < |inner|
      ensures s[i + k + t] == inner[t]
    {
      assert word[k..k + |inner|][t] == word[k + t];
      assert s[i..i + |word|][k + t] == s[i + k + t];
    }
    assert s[i + k..i + k + |inner|] == inner;
    assert OccursAt(s, inner, i + k);
  }

  /** Python `s.split(sep)` for a non-empty separator: the pieces between the
      non-overlapping occurrences of `sep`, scanning left to right. */
  function Split(s: string, sep: string): (r: seq<string>)
    requires sep != []
    decreases |s|
    ensures |r| >= 1
  {
    match Find(s, sep)
    case None => [s]
    case Some(i) => [s[..i]] + Split(s[i + |sep|..], sep)
  }

  /** Python `sep.join(parts)`: the parts with the separator between each
      two neighbours; the text starts with the first part. */
  function Join(sep: string, parts: seq<string>): (r: string)
    decreases |parts|
    ensures parts == [] ==> r == []
    ensures parts != [] ==> |parts[0]| <= |r| && r[..|parts[0]|] == parts[0]
  {
    if |parts| == 0 then []
    else if |parts| == 1 then parts[0]
    else parts[0] + sep + Join(sep, parts[1..])
  }

  lemma {:induction false} JoinCons(sep: string, p: string, parts: seq<string>)
    requires parts != []
    ensures Join(sep, [p] + parts) == p + sep + Join(sep, parts)
  {
    assert ([p] + parts)[1..] == parts;
  }

  /** Appending a part appends the separator and the part. */
  lemma {:induction false} JoinSnoc(sep: string, parts: seq<string>, p: string)
    requires parts != []
    ensures Join(sep, parts + [p]) == Join(sep, parts) + sep + p
    decreases |parts|
  {
    if |parts| == 1 {
      assert parts + [p] == [parts[0], p];
      assert [parts[0], p][1..] == [p];
    } else {
      var tail := parts[1..];
      assert (parts + [p])[1..] == tail + [p];
      JoinSnoc(sep, tail, p);
    }
  }

  /** Joining the pieces of a split with the same separator gives back the
      original text. */
  lemma {:induction false} JoinSplit(s: string, sep: string)
    requires sep != []
    ensures Join(sep, Split(s, sep)) == s
    decreases |s|
  {
    if Find(s, sep).Some? {
      var i := Find(s, sep).value;
      var head, rest := s[..i], s[i + |sep|..];
      assert Split(s, sep) == [head] + Split(rest, sep);
      JoinSplit(rest, sep);
      JoinCons(sep, head, Split(rest, sep));
      assert s[i..i + |sep|] == sep;
      assert s == head + s[i..i + |sep|] + rest;
    }
  }

  /** No piece of a split contains the separator. */
  lemma {:induction false} SplitPiecesAvoidSep(s: string, sep: string)
    requires sep != []
    ensures forall k :: 0 <= k < |Split(s, sep)| ==> !Contains(Split(s, sep)[k], sep)
    decreases |s|
  {
    match Find(s, sep)
    case None =>
    case Some(i) =>
      var rest := s[i + |sep|..];
      var head := s[..i];
      var pieces := Split(s, sep);
      assert pieces == [head] + Split(rest, sep);
      SplitPiecesAvoidSep(rest, sep);
      forall k | 0 <= k < |pieces|
        ensures !Contains(pieces[k], sep)
      {
        if k == 0 {
          NoSepBeforeFirst(s, sep);
        } else {
          assert pieces[k] == Split(rest, sep)[k - 1];
        }
      }
  }

  /** The text before the first occurrence of `sep` does not contain it. */
  lemma NoSepBeforeFirst(s: string, sep: string)
    requires sep != [] && Find(s, sep).Some?
    ensures !Contains(s[..Find(s, sep).value], sep)
  {
    var head := s[..Find(s, sep).value];
    ContainsIff(head, sep);
    forall j | 0 <= j && j + |sep| <= |head|
      ensures !OccursAt(head, sep, j)
    {
      SliceOfPrefix(s, |head|, j, j + |sep|);
      assert !OccursAt(s, sep, j);
    }
  }

  lemma SliceOfPrefix(s: string, n: nat, i: nat, j: nat)
    requires i <= j <= n <= |s|
    ensures s[..n][i..j] == s[i..j]
  {
  }

  /** A character absent from the text is absent from every piece. */
  lemma {:induction false} SplitPiecesKeepAbsent(s: string, sep: string, c: char)
    requires sep != [] && c !in s
    ensures forall k :: 0 <= k < |Split(s, sep)| ==> c !in Split(s, sep)[k]
    decreases |s|
  {
    match Find(s, sep)
    case None =>
    case Some(i) =>
      var rest := s[i + |sep|..];
      SliceKeepsAbsent(s, 0, i, c);
      SliceKeepsAbsent(s, i + |sep|, |s|, c);
      SplitPiecesKeepAbsent(rest, sep, c);
      PiecesAfterFirst(s[..i], Split(rest, sep), c);
  }

  lemma PiecesAfterFirst(head: string, tail: seq<string>, c: char)
    requires c !in head && forall k :: 0 <= k < |tail| ==> c !in tail[k]
    ensures forall k :: 0 <= k < |[head] + tail| ==> c !in ([head] + tail)[k]
  {
  }

  /** Splitting on a single character yields one more piece than the number
      of times the character occurs. */
  lemma {:induction false} SplitCharCount(s: string, c: char)
    ensures |Split(s, [c])| == multiset(s)[c] + 1
    decreases |s|
  {
    FindChar(s, c);
    match Find(s, [c])
    case None =>
    case Some(i) =>
      var head, rest := s[..i], s[i + 1..];
      SplitCharCount(rest, c);
      assert Split(s, [c]) == [head] + Split(rest, [c]);
      assert s == head + [c] + rest;
      CountAround(head, c, rest);
  }

  /** The first occurrence of a one-character separator is the first index
      holding that character. */
  lemma FindChar(s: string, c: char)
    ensures Find(s, [c]).None? ==> multiset(s)[c] == 0
    ensures Find(s, [c]).Some? ==>
      var i := Find(s, [c]).value;
      i < |s| && s[i] == c && c !in s[..i]
  {
    match Find(s, [c])
    case None =>
      forall k | 0 <= k < |s|
        ensures s[k] != c
      {
        assert !OccursAt(s, [c], k);
        assert s[k..k + 1] == [s[k]];
      }
    case Some(i) =>
      assert s[i] == s[i..i + 1][0];
      forall k | 0 <= k < i
        ensures s[..i][k] != c
      {
        assert !OccursAt(s, [c], k);
        assert s[k..k + 1] == [s[k]];
      }
  }

  lemma CountAround(head: string, c: char, rest: string)
    requires c !in head
    ensures multiset(head + [c] + rest)[c] == 1 + multiset(rest)[c]
  {
    assert multiset(head + [c] + rest) == multiset(head) + multiset([c]) + multiset(rest);
  }

  /** `p` followed by `sep` holds no occurrence of `sep` that starts inside
      `p`: the first occurrence in `p + sep + ...` is the appended one. */
  ghost predicate NoEarlySep(p: string, sep: string) {
    forall j :: 0 <= j < |p| ==> !OccursAt(p + sep, sep, j)
  }

  lemma NoEarlySepAvoids(p: string, sep: string)
    requires sep != [] && NoEarlySep(p, sep)
    ensures !Contains(p, sep)
  {
    ContainsIff(p, sep);
    forall j | 0 <= j && j + |sep| <= |p|
      ensures !OccursAt(p, sep, j)
    {
      assert !OccursAt(p + sep, sep, j);
      assert (p + sep)[j..j + |sep|] == p[j..j + |sep|];
    }
  }

  lemma NoEarlySepChar(p: string, c: char)
    requires c !in p
    ensures NoEarlySep(p, [c])
  {
    forall j | 0 <= j < |p|
      ensures !OccursAt(p + [c], [c], j)
    {
      assert (p + [c])[j] == p[j];
    }
  }

  /** When no occurrence of `sep` starts inside `p`, the first piece of
      `p + sep + rest` is `p` and the others are the pieces of `rest`. */
  lemma SplitAfterPart(p: string, sep: string, rest: string)
    requires sep != [] && NoEarlySep(p, sep)
    ensures Split(p + sep + rest, sep) == [p] + Split(rest, sep)
  {
    var s := p + sep + rest;
    forall j | 0 <= j < |p|
      ensures !OccursAt(s, sep, j)
    {
      assert !OccursAt(p + sep, sep, j);
      assert s[j..j + |sep|] == (p + sep)[j..j + |sep|];
    }
    assert s[|p|..|p| + |sep|] == sep;
    assert OccursAt(s, sep, |p|);
    assert Find(s, sep) == Some(|p|);
    assert s[..|p|] == p;
    assert s[|p| + |sep|..] == rest;
  }

  /** Splitting a join of a non-empty list gives back the parts, provided
      no part lets an occurrence of the separator start early. No parts
      join to "", which splits into one empty piece. */
  lemma {:induction false} SplitJoin(parts: seq<string>, sep: string)
    requires sep != [] && parts != []
    requires forall k :: 0 <= k < |parts| ==> NoEarlySep(parts[k], sep)
    ensures Split(Join(sep, parts), sep) == parts
    decreases |parts|
  {
    if |parts| == 1 {
      NoEarlySepAvoids(parts[0], sep);
    } else {
      var tail := parts[1..];
      SplitAfterPart(parts[0], sep, Join(sep, tail));
      SplitJoin(tail, sep);
      assert parts == [parts[0]] + tail;
    }
  }

  /** The first character of a join is the first character of its first
      part. */
  lemma JoinFirst(sep: string, parts: seq<string>)
    requires parts != [] && parts[0] != []
    ensures Join(sep, parts) != [] && Join(sep, parts)[0] == parts[0][0]
  {
  }

  /** The last character of a join is the last character of its last part. */
  lemma {:induction false} JoinLast(sep: string, parts: seq<string>)
    requires parts != [] && parts[|parts| - 1] != []
    ensures Join(sep, parts) != []
    ensures Join(sep, parts)[|Join(sep, parts)| - 1] == parts[|parts| - 1][|parts[|parts| - 1]| - 1]
    decreases |parts|
  {
    if |parts| > 1 {
      JoinLast(sep, parts[1..]);
    }
  }

  /** Lines free of newlines, joined by newlines, split back into
      themselves. */
  lemma SplitJoinedLines(lines: seq<string>)
    requires lines != []
    requires forall k :: 0 <= k < |lines| ==> '\n' !in lines[k]
    ensures Split(Join("\n", lines), "\n") == lines
  {
    forall k | 0 <= k < |lines|
      ensures NoEarlySep(lines[k], "\n")
    {
      NoEarlySepChar(lines[k], '\n');
    }
    SplitJoin(lines, "\n");
  }

  /** A join whose first part starts, and whose last part ends, with a
      non-whitespace character is left alone by `strip()`. */
  lemma JoinStripped(sep: string, parts: seq<string>)
    requires parts != [] && parts[0] != [] && parts[|parts| - 1] != []
    requires IsStripped(parts[0]) && IsStripped(parts[|parts| - 1])
    ensures Strip(Join(sep, parts)) == Join(sep, parts)
  {
    var j := Join(sep, parts);
    var first, last := parts[0], parts[|parts| - 1];
    JoinFirst(sep, parts);
    JoinLast(sep, parts);
    assert !IsSpace(j[0]) by {
      assert j[0] == first[0];
    }
    assert !IsSpace(j[|j| - 1]) by {
      assert j[|j| - 1] == last[|last| - 1];
    }
    assert IsStripped(j);
  }

  /** No two newlines in a row and no newline at the end. */
  predicate NoBlankLine(s: string) {
    && (forall j :: 0 <= j < |s| - 1 ==> s[j] != '\n' || s[j + 1] != '\n')
    && (s == [] || s[|s| - 1] != '\n')
  }

  lemma NoBlankLineNoEarlySep(s: string)
    requires NoBlankLine(s)
    ensures NoEarlySep(s, "\n\n")
  {
    forall j | 0 <= j < |s|
      ensures !OccursAt(s + "\n\n", "\n\n", j)
    {
      var t := s + "\n\n";
      assert t[j..j + 2] == [t[j], t[j + 1]];
      assert t[j] == s[j];
      if j < |s| - 1 {
        assert t[j + 1] == s[j + 1];
      }
    }
  }

  /** Lines that are non-empty and free of newlines, joined by newlines,
      make a text without blank lines. */
  lemma {:induction false} JoinLinesNoBlankLine(lines: seq<string>)
    requires lines != []
    requires forall k :: 0 <= k < |lines| ==> lines[k] != [] && '\n' !in lines[k]
    ensures NoBlankLine(Join("\n", lines))
    decreases |lines|
  {
    if |lines| > 1 {
      var p := lines[0];
      var tail := lines[1..];
      var rest := Join("\n", tail);
      JoinLinesNoBlankLine(tail);
      JoinFirst("\n", tail);
      JoinLast("\n", tail);
      var s := Join("\n", lines);
      assert s == p + "\n" + rest;
      forall j | 0 <= j < |s| - 1
        ensures s[j] != '\n' || s[j + 1] != '\n'
      {
        if j < |p| {
          assert s[j] == p[j];
        } else if j == |p| {
          assert s[j + 1] == rest[0];
        } else {
          assert s[j] == rest[j - |p| - 1] && s[j + 1] == rest[j - |p|];
        }
      }
      assert s[|s| - 1] == rest[|rest| - 1];
    }
  }

  /** Python `c.lower()` for the ASCII and Latin-1 capitals. */
  function LowerChar(c: char): (r: char)
    ensures 'A' <= c <= 'Z' ==> 'a' <= r <= 'z'
    ensures !('A' <= c <= 'Z') && !('\U{C0}' <= c <= '\U{DE}') ==> r == c
  {
    if 'A' <= c <= 'Z' || ('\U{C0}' <= c <= '\U{DE}' && c != '\U{D7}') then
      (c as int + 32) as char
    else
      c
  }

  /** Python `c * n` for a one-character string `c`. */
  function Repeat(c: char, n: nat): (r: string)
    ensures |r| == n
    ensures forall i :: 0 <= i < n ==> r[i] == c
  {
    if n == 0 then [] else Repeat(c, n - 1) + [c]
  }

  lemma {:induction false} RepeatAvoids(c: char, n: nat, d: char)
    requires c != d
    ensures d !in Repeat(c, n)
  {
    if n > 0 {
      RepeatAvoids(c, n - 1, d);
    }
  }

  /** Python `s.lower()`. */
  function Lower(s: string): (r: string)
    ensures |r| == |s|
    ensures forall i :: 0 <= i < |s| ==> r[i] == LowerChar(s[i])
  {
    seq(|s|, i requires 0 <= i < |s| => LowerChar(s[i]))
  }

  lemma LowerIdempotent(s: string)
    ensures Lower(Lower(s)) == Lower(s)
  {
  }
}

=== FILE: queue_annotation.dfy ===
/** data/add_queue.py: every feature of a GeoJSON document gets a `queue`
    property, a waiting-queue length between 0 and 20. The random draw is
    an input: one value per feature. */
module QueueAnnotation {
  import opened Wrappers
  import opened PyJson

  const MaxQueue: int := 20

  /** `feature['properties']['queue'] = q` on one feature, as a value:
      the updated feature, or the exception the assignment raises. */
  function Annotate(feature: Json, q: int): (r: Result<Json, PyError>)
    ensures r.Success? <==>
      feature.Obj? && "properties" in feature.fields && feature.fields["properties"].Obj?
    ensures feature.Obj? && "properties" !in feature.fields ==> r == Failure(KeyError("properties"))
  {
    if !feature.Obj? then Failure(TypeError)
    else if "properties" !in feature.fields then Failure(KeyError("properties"))
    else
      var properties := feature.fields["properties"];
      if !properties.Obj? then Failure(TypeError)
      else Success(Obj(feature.fields["properties" := Obj(properties.fields["queue" := Int(q)])]))
  }

  /** The feature's properties hold a queue length between 0 and 20. */
  predicate HasQueue(feature: Json) {
    && feature.Obj? && "properties" in feature.fields
    && feature.fields["properties"].Obj? && "queue" in feature.fields["properties"].fields
    && feature.fields["properties"].fields["queue"].Int?
    && 0 <= feature.fields["properties"].fields["queue"].i <= MaxQueue
  }

  /** The update sets `queue` to the drawn value, overwriting any earlier
      one, and changes no other property, no other member of the feature
      (its geometry, say). */
  lemma AnnotateChangesOnlyQueue(feature: Json, q: int)
    requires Annotate(feature, q).Success?
    ensures var after := Annotate(feature, q).value;
      && after.Obj?
      && after.fields.Keys == feature.fields.Keys
      && (forall key :: key in feature.fields && key != "properties" ==> after.fields[key] == feature.fields[key])
      && after.fields["properties"].Obj?
      && after.fields["properties"].fields.Keys == feature.fields["properties"].fields.Keys + {"queue"}
      && after.fields["properties"].fields["queue"] == Int(q)
      && (forall key :: key in feature.fields["properties"].fields && key != "queue" ==>
            after.fields["properties"].fields[key] == feature.fields["properties"].fields[key])
  {
  }

  /** A drawn value in 0..20 leaves the feature with a queue in range. */
  lemma AnnotateInRange(feature: Json, q: int)
    requires Annotate(feature, q).Success? && 0 <= q <= MaxQueue
    ensures HasQueue(Annotate(feature, q).value)
  {
  }

  /** A second annotation replaces the first. */
  lemma AnnotateOverwrites(feature: Json, q1: int, q2: int)
    requires Annotate(feature, q1).Success?
    ensures Annotate(Annotate(feature, q1).value, q2) == Annotate(feature, q2)
  {
    var props := feature.fields["properties"];
    assert props.fields["queue" := Int(q1)]["queue" := Int(q2)] == props.fields["queue" := Int(q2)];
    assert feature.fields["properties" := Obj(props.fields["queue" := Int(q1)])]
             ["properties" := Obj(props.fields["queue" := Int(q2)])]
      == feature.fields["properties" := Obj(props.fields["queue" := Int(q2)])];
  }

  /** The loop of `add_queue_to_geojson`, in place over the feature list,
      followed by the count it reports. A feature whose update raises stops
      the loop: the features before it are already updated, the rest are
      untouched. */
  method AddQueue(features: array<Json>, queues: seq<int>) returns (r: Result<nat, PyError>)
    requires |queues| == features.Length
    requires forall k :: 0 <= k < |queues| ==> 0 <= queues[k] <= MaxQueue
    modifies features
    ensures r.Success? <==> forall k :: 0 <= k < features.Length ==> Annotate(old(features[k]), queues[k]).Success?
    ensures r.Success? ==> r.value == features.Length
    ensures r.Success? ==>
      forall k :: 0 <= k < features.Length ==> features[k] == Annotate(old(features[k]), queues[k]).value
    ensures r.Success? ==> forall k :: 0 <= k < features.Length ==> HasQueue(features[k])
    ensures r.Failure? ==>
      exists i :: (0 <= i < features.Length
        && Annotate(old(features[i]), queues[i]) == Failure(r.error)
        && (forall k :: 0 <= k < i ==>
              Annotate(old(features[k]), queues[k]).Success? && features[k] == Annotate(old(features[k]), queues[k]).value)
        && (forall k :: i <= k < features.Length ==> features[k] == old(features[k])))
  {
    var i := 0;
    while i < features.Length
      invariant 0 <= i <= features.Length
      invariant forall k :: 0 <= k < i ==> Annotate(old(features[k]), queues[k]).Success?
      invariant forall k :: 0 <= k < i ==> features[k] == Annotate(old(features[k]), queues[k]).value
      invariant forall k :: 0 <= k < i ==> HasQueue(features[k])
      invariant forall k :: i <= k < features.Length ==> features[k] == old(features[k])
    {
      var updated := Annotate(features[i], queues[i]);
      if updated.Failure? {
        return Failure(updated.error);
      }
      AnnotateInRange(features[i], queues[i]);
      features[i] := updated.value;
      i := i + 1;
    }
    r := Success(features.Length);
  }
}

=== FILE: recycling_bins.dfy ===
/** recycling_assistant.py: the bin image table (`get_bin_image`) and the
    rules `main` applies to each paragraph of the recycling advice to pick
    the bin whose image is shown beside it. */
module RecyclingBins {
  import opened Wrappers
  import opened PyStrings
  import opened Sequences

  /** The image table of `get_bin_image`. The pharmacy entry's key is
      spelled "famacie". */
  const BinImages: map<string, string> := map[
    "battery_symbol" := "images/battery_symbol.png",
    "blue" := "images/blu.png",
    "brown" := "images/brown.png",
    "green" := "images/green.png",
    "yellow" := "images/yellow.png",
    "grey" := "images/grey.png",
    "oil_symbol" := "images/oil_symbol.png",
    "red" := "images/red.png",
    "famacie" := "images/farmacie.jpg",
    "yellow_street" := "images/yellow_street.png"]

  /** `get_bin_image(waste_type)`: the image of the lower-cased name, or
      None. */
  function GetBinImage(wasteType: string): (r: Option<string>)
    ensures r.Some? <==> Lower(wasteType) in BinImages
    ensures r.Some? ==> r.value == BinImages[Lower(wasteType)]
  {
    var key := Lower(wasteType);
    if key in BinImages then Some(BinImages[key]) else None
  }

  /** The lookup ignores case: names that lower-case alike get the same
      image, and a name gets the image of its lower-case form. */
  lemma GetBinImageIgnoresCase(a: string, b: string)
    requires Lower(a) == Lower(b)
    ensures GetBinImage(a) == GetBinImage(b)
    ensures GetBinImage(Lower(a)) == GetBinImage(a)
  {
    LowerIdempotent(a);
  }

  /** A text without capitals is its own lower-case form. */
  lemma LowerOfLowercase(s: string)
    requires forall i :: 0 <= i < |s| ==> !('A' <= s[i] <= 'Z') && s[i] < '\U{C0}'
    ensures Lower(s) == s
  {
  }

  /** "farmacie", the name the pharmacy rule asks for, is not in the
      table; the entry is under "famacie". */
  lemma PharmacyImageMissing()
    ensures GetBinImage("farmacie") == None
    ensures GetBinImage("famacie") == Some("images/farmacie.jpg")
  {
    LowerOfLowercase("farmacie");
    LowerOfLowercase("famacie");
  }

  /** `any(word in low for word in words)`. */
  predicate AnyIn(low: string, words: seq<string>)
    decreases |words|
  {
    words != [] && (Contains(low, words[0]) || AnyIn(low, words[1..]))
  }

  lemma {:induction false} AnyInIff(low: string, words: seq<string>)
    ensures AnyIn(low, words) <==> exists j :: 0 <= j < |words| && Contains(low, words[j])
    decreases |words|
  {
    if words != [] {
      AnyInIff(low, words[1..]);
      assert forall j :: 1 <= j < |words| ==> words[j] == words[1..][j - 1];
      if exists j :: 0 <= j < |words| && Contains(low, words[j]) {
        var j :| 0 <= j < |words| && Contains(low, words[j]);
        if j > 0 {
          assert Contains(low, words[1..][j - 1]);
        }
      }
    }
  }

  /** The keyword rules of the `if`/`elif` chain, in priority order: the
      bin name passed to `get_bin_image` and the words that select it. */
  const BinRules: seq<(string, seq<string>)> := [
    ("grey", ["unsorted waste", "grey"]),
    ("brown", ["organic", "food waste", "brown"]),
    ("yellow", ["plastic", "metal", "yellow"]),
    ("blue", ["paper", "blue"]),
    ("red", ["collection centers", "electronic", "red"]),
    ("oil_symbol", ["oil"]),
    ("battery_symbol", ["battery"]),
    ("farmacie", ["farmacy"])]

  /** The bin of the first rule one of whose words occurs in `low`. */
  function FirstMatch(rules: seq<(string, seq<string>)>, low: string): (r: Option<string>)
    decreases |rules|
  {
    if rules == [] then None
    else if AnyIn(low, rules[0].1) then Some(rules[0].0)
    else FirstMatch(rules[1..], low)
  }

  /** First-match semantics: a bin is chosen exactly when some rule
      matches, and it is the bin of the earliest matching rule. */
  lemma {:induction false} FirstMatchIsEarliest(rules: seq<(string, seq<string>)>, low: string)
    ensures FirstMatch(rules, low).Some? <==> exists i :: 0 <= i < |rules| && AnyIn(low, rules[i].1)
    ensures FirstMatch(rules, low).Some? ==>
      exists i :: (0 <= i < |rules| && rules[i].0 == FirstMatch(rules, low).value && AnyIn(low, rules[i].1)
                   && forall j :: 0 <= j < i ==> !AnyIn(low, rules[j].1))
    decreases |rules|
  {
    if rules != [] {
      var tail := rules[1..];
      FirstMatchIsEarliest(tail, low);
      assert forall i :: 1 <= i < |rules| ==> rules[i] == tail[i - 1];
      if !AnyIn(low, rules[0].1) && FirstMatch(tail, low).Some? {
        var i :| 0 <= i < |tail| && tail[i].0 == FirstMatch(tail, low).value && AnyIn(low, tail[i].1)
          && forall j :: 0 <= j < i ==> !AnyIn(low, tail[j].1);
        assert rules[i + 1] == tail[i];
        assert forall j :: 1 <= j < i + 1 ==> !AnyIn(low, rules[j].1);
      }
    }
  }

  /** The `if`/`elif` chain of `main` over `item.lower()`: the name of the
      bin whose image is shown, or None when no branch is taken. It only
      ever names one of the eight bins of the rule table. */
  function ChooseBin(item: string): (r: Option<string>)
    ensures r.Some? ==>
      r.value in {"grey", "brown", "yellow", "blue", "red", "oil_symbol", "battery_symbol", "farmacie"}
  {
    var low := Lower(item);
    if Contains(low, "unsorted waste") || Contains(low, "grey") then Some("grey")
    else if Contains(low, "organic") || Contains(low, "food waste") || Contains(low, "brown") then Some("brown")
    else if Contains(low, "plastic") || Contains(low, "metal") || Contains(low, "yellow") then Some("yellow")
    else if Contains(low, "paper") || Contains(low, "blue") then Some("blue")
    else if Contains(low, "collection centers") || Contains(low, "electronic") || Contains(low, "red") then Some("red")
    else if Contains(low, "oil") then Some("oil_symbol")
    else if Contains(low, "battery") then Some("battery_symbol")
    else if Contains(low, "farmacy") then Some("farmacie")
    else None
  }

  lemma AnyInOne(low: string, a: string)
    ensures AnyIn(low, [a]) == Contains(low, a)
  {
    assert [a][1..] == [];
  }

  lemma AnyInTwo(low: string, a: string, b: string)
    ensures AnyIn(low, [a, b]) == (Contains(low, a) || Contains(low, b))
  {
    assert [a, b][1..] == [b];
    AnyInOne(low, b);
  }

  lemma AnyInThree(low: string, a: string, b: string, c: string)
    ensures AnyIn(low, [a, b, c]) == (Contains(low, a) || Contains(low, b) || Contains(low, c))
  {
    assert [a, b, c][1..] == [b, c];
    AnyInTwo(low, b, c);
  }

  /** One step of the first-match scan. */
  lemma FirstMatchStep(rules: seq<(string, seq<string>)>, low: string, i: nat)
    requires i < |rules|
    ensures FirstMatch(rules[i..], low) ==
      if AnyIn(low, rules[i].1) then Some(rules[i].0) else FirstMatch(rules[i + 1..], low)
  {
    assert rules[i..][1..] == rules[i + 1..];
  }

  /** The chain is the first match over the rule table. */
  lemma ChooseBinIsFirstMatch(item: string)
    ensures ChooseBin(item) == FirstMatch(BinRules, Lower(item))
  {
    var low := Lower(item);
    var rs := BinRules;
    AnyInTwo(low, "unsorted waste", "grey");
    AnyInThree(low, "organic", "food waste", "brown");
    AnyInThree(low, "plastic", "metal", "yellow");
    AnyInTwo(low, "paper", "blue");
    AnyInThree(low, "collection centers", "electronic", "red");
    AnyInOne(low, "oil");
    AnyInOne(low, "battery");
    AnyInOne(low, "farmacy");
    assert rs[8..] == [];
    FirstMatchStep(rs, low, 7);
    FirstMatchStep(rs, low, 6);
    FirstMatchStep(rs, low, 5);
    FirstMatchStep(rs, low, 4);
    FirstMatchStep(rs, low, 3);
    FirstMatchStep(rs, low, 2);
    FirstMatchStep(rs, low, 1);
    FirstMatchStep(rs, low, 0);
    assert rs[0..] == rs;
  }

  /** The chain picks a bin exactly when the lower-cased item contains one
      of the keywords, and then the bin of the earliest rule that matches. */
  lemma ChooseBinPriority(item: string)
    ensures ChooseBin(item).None? <==>
      forall i, j :: 0 <= i < |BinRules| && 0 <= j < |BinRules[i].1| ==> !Contains(Lower(item), BinRules[i].1[j])
    ensures ChooseBin(item).Some? ==>
      exists i :: (0 <= i < |BinRules| && BinRules[i].0 == ChooseBin(item).value && AnyIn(Lower(item), BinRules[i].1)
                   && forall j :: 0 <= j < i ==> !AnyIn(Lower(item), BinRules[j].1))
  {
    var low := Lower(item);
    ChooseBinIsFirstMatch(item);
    FirstMatchIsEarliest(BinRules, low);
    forall i | 0 <= i < |BinRules| {
      AnyInIff(low, BinRules[i].1);
    }
  }

  /** Matching ignores case: items that lower-case alike get the same bin. */
  lemma ChooseBinIgnoresCase(a: string, b: string)
    requires Lower(a) == Lower(b)
    ensures ChooseBin(a) == ChooseBin(b)
  {
    ChooseBinIsFirstMatch(a);
    ChooseBinIsFirstMatch(b);
  }

  /** A paragraph that mentions grey gets the grey bin, whatever else it
      mentions (plastic, say). */
  lemma GreyWins(item: string)
    requires Contains(Lower(item), "grey")
    ensures ChooseBin(item) == Some("grey")
  {
  }

  /** Matching is by substring: any word containing "red", such as
      "required", selects the red bin unless an earlier rule matched. */
  lemma RequiredSelectsRed(item: string)
    requires Contains(Lower(item), "required")
    requires !AnyIn(Lower(item), BinRules[0].1) && !AnyIn(Lower(item), BinRules[1].1)
    requires !AnyIn(Lower(item), BinRules[2].1) && !AnyIn(Lower(item), BinRules[3].1)
    ensures ChooseBin(item) == Some("red")
  {
    var low := Lower(item);
    AnyInTwo(low, "unsorted waste", "grey");
    AnyInThree(low, "organic", "food waste", "brown");
    AnyInThree(low, "plastic", "metal", "yellow");
    AnyInTwo(low, "paper", "blue");
    assert "required"[5..8] == "red";
    ContainsThrough(low, "required", "red", 5);
  }

  /** The image shown beside a paragraph, if any. */
  function ImageFor(item: string): Option<string> {
    match ChooseBin(item)
    case None => None
    case Some(bin) => GetBinImage(bin)
  }

  /** Each bin of the rule table has an image, except "farmacie". */
  lemma BinImagesOfRules(bin: string)
    requires bin in {"grey", "brown", "yellow", "blue", "red", "oil_symbol", "battery_symbol", "farmacie"}
    ensures bin != "farmacie" ==> GetBinImage(bin) == Some(BinImages[bin])
    ensures bin == "farmacie" ==> GetBinImage(bin) == None
  {
    if bin == "farmacie" {
      PharmacyImageMissing();
    } else {
      LowerOfLowercase(bin);
    }
  }

  /** Every bin the chain can pick has an image, except the pharmacy bin,
      whose name is missing from the table: that branch never shows one. */
  lemma ImagesOfChosenBins(item: string)
    ensures ChooseBin(item).Some? && ChooseBin(item).value != "farmacie" ==> ImageFor(item).Some?
    ensures ChooseBin(item) == Some("farmacie") ==> ImageFor(item) == None
  {
    if ChooseBin(item).Some? {
      BinImagesOfRules(ChooseBin(item).value);
    }
  }

  /** A paragraph of advice as displayed: its text, the chosen bin and the
      image shown beside it. */
  datatype AdviceRow = AdviceRow(text: string, bin: Option<string>, image: Option<string>)

  /** `if item.strip():`, a test that cannot raise. */
  function NotBlank(item: string): Result<bool, ()> {
    Success(Strip(item) != [])
  }

  /** The paragraphs that are displayed: the pieces of the advice split on
      blank lines, without the whitespace-only ones. */
  function AdviceItems(advice: string): (items: seq<string>)
    ensures |items| <= |Split(advice, "\n\n")|
    ensures forall k :: 0 <= k < |items| ==> Strip(items[k]) != []
  {
    NonBlank(Split(advice, "\n\n"))
  }

  /** `[p for p in pieces if p.strip()]`. */
  function NonBlank(pieces: seq<string>): (kept: seq<string>)
    ensures |kept| <= |pieces|
    ensures forall k :: 0 <= k < |kept| ==> Strip(kept[k]) != []
  {
    FilterAllFailure(NotBlank, pieces);
    FilterAll(NotBlank, pieces).value
  }

  /** What the loop of `main` shows, paragraph by paragraph. */
  function AdviceRows(advice: string): (rows: seq<AdviceRow>)
    ensures |rows| == |AdviceItems(advice)|
  {
    var items := AdviceItems(advice);
    seq(|items|, k requires 0 <= k < |items| => AdviceRow(items[k], ChooseBin(items[k]), ImageFor(items[k])))
  }

  /** The kept pieces are exactly the non-blank ones, in order and with
      their multiplicity. */
  lemma NonBlankSelects(pieces: seq<string>)
    ensures IsSubsequence(NonBlank(pieces), pieces)
    ensures forall p :: multiset(NonBlank(pieces))[p] == if AllSpace(p) then 0 else multiset(pieces)[p]
    ensures forall k :: 0 <= k < |NonBlank(pieces)| ==> !AllSpace(NonBlank(pieces)[k])
  {
    FilterAllFailure(NotBlank, pieces);
    FilterAllSelects(NotBlank, pieces);
    var items := NonBlank(pieces);
    forall p
      ensures multiset(items)[p] == if AllSpace(p) then 0 else multiset(pieces)[p]
    {
      StripIsTrim(p);
    }
    forall k | 0 <= k < |items|
      ensures !AllSpace(items[k])
    {
      assert NotBlank(items[k]) == Success(true);
      StripIsTrim(items[k]);
    }
  }

  /** The displayed paragraphs are exactly the non-blank pieces of the
      advice split on blank lines, in order and with their multiplicity. */
  lemma AdviceItemsAreNonBlankPieces(advice: string)
    ensures var pieces := Split(advice, "\n\n");
      && IsSubsequence(AdviceItems(advice), pieces)
      && (forall p :: multiset(AdviceItems(advice))[p] == if AllSpace(p) then 0 else multiset(pieces)[p])
      && (forall k :: 0 <= k < |AdviceItems(advice)| ==> !AllSpace(AdviceItems(advice)[k]))
  {
    NonBlankSelects(Split(advice, "\n\n"));
  }

  /** When the last rule's bin differs from every other rule's, first
      match picks some other bin exactly when one of the other rules
      matches. */
  lemma {:induction false} FirstMatchBeforeLast(rules: seq<(string, seq<string>)>, low: string)
    requires rules != []
    requires forall i :: 0 <= i < |rules| - 1 ==> rules[i].0 != rules[|rules| - 1].0
    ensures (FirstMatch(rules, low).Some? && FirstMatch(rules, low).value != rules[|rules| - 1].0)
      <==> exists i :: 0 <= i < |rules| - 1 && AnyIn(low, rules[i].1)
    decreases |rules|
  {
    if |rules| > 1 && !AnyIn(low, rules[0].1) {
      var tail := rules[1..];
      assert forall i :: 1 <= i < |rules| ==> rules[i] == tail[i - 1];
      FirstMatchBeforeLast(tail, low);
      if exists i :: 0 <= i < |rules| - 1 && AnyIn(low, rules[i].1) {
        var i :| 0 <= i < |rules| - 1 && AnyIn(low, rules[i].1);
        assert AnyIn(low, tail[i - 1].1);
      }
    }
  }

  /** A paragraph shows an image exactly when one of the first seven rules
      (every rule but the pharmacy one) has a keyword in its lower-cased
      text: the chain then picks a bin other than "farmacie". */
  lemma ImageIffEarlyRule(item: string)
    ensures ImageFor(item).Some? <==> ChooseBin(item).Some? && ChooseBin(item).value != "farmacie"
    ensures ImageFor(item).Some? <==> exists i :: 0 <= i < |BinRules| - 1 && AnyIn(Lower(item), BinRules[i].1)
  {
    ImagesOfChosenBins(item);
    ChooseBinIsFirstMatch(item);
    FirstMatchBeforeLast(BinRules, Lower(item));
  }

  /** Each displayed row carries its non-blank paragraph and the bin the
      chain picks for it; it shows an image exactly when that bin is not
      "farmacie", that is when a keyword of one of the first seven rules
      occurs in the lower-cased paragraph. */
  lemma AdviceRowsShowChoice(advice: string)
    ensures forall k :: 0 <= k < |AdviceRows(advice)| ==>
      var row := AdviceRows(advice)[k];
      && row.text == AdviceItems(advice)[k]
      && Strip(row.text) != []
      && row.bin == ChooseBin(row.text)
      && (row.image.Some? <==> row.bin.Some? && row.bin.value != "farmacie")
      && (row.image.Some? <==> exists i :: 0 <= i < |BinRules| - 1 && AnyIn(Lower(row.text), BinRules[i].1))
  {
    var rows := AdviceRows(advice);
    forall k | 0 <= k < |rows|
      ensures rows[k].image.Some? <==> rows[k].bin.Some? && rows[k].bin.value != "farmacie"
      ensures rows[k].image.Some? <==> exists i :: 0 <= i < |BinRules| - 1 && AnyIn(Lower(rows[k].text), BinRules[i].1)
    {
      ImageIffEarlyRule(rows[k].text);
    }
  }
}

=== FILE: sequences.dfy ===
/** Two list shapes that recur in the scripts, with an error path:
    a loop or comprehension that applies a step which may raise to every
    element (MapAll), and a comprehension with an `if` whose test may raise
    (FilterAll); plus the order-preserving subsequence relation and the
    first-appearance de-duplication that pandas' `unique()` performs. */
module Sequences {
  import opened Wrappers

  /** `[f(x) for x in xs]` where `f` may raise: the first error in list
      order is the outcome, otherwise the list of results. Defined from the
      back, as a loop that appends builds it. */
  function MapAll<T, U, E>(f: T -> Result<U, E>, xs: seq<T>): (r: Result<seq<U>, E>)
    decreases |xs|
    ensures r.Success? ==> |r.value| == |xs|
  {
    if xs == [] then Success([])
    else
      match MapAll(f, xs[..|xs| - 1])
      case Failure(e) => Failure(e)
      case Success(us) =>
        match f(xs[|xs| - 1])
        case Failure(e) => Failure(e)
        case Success(u) => Success(us + [u])
  }

  /** One more step of a loop that has processed `xs[..i]` successfully. */
  lemma MapAllStep<T, U, E>(f: T -> Result<U, E>, xs: seq<T>, i: nat)
    requires i < |xs|
    ensures MapAll(f, xs[..i + 1]) ==
      match MapAll(f, xs[..i])
      case Failure(e) => Failure(e)
      case Success(us) =>
        match f(xs[i])
        case Failure(e) => Failure(e)
        case Success(u) => Success(us + [u])
  {
    assert xs[..i + 1][..i] == xs[..i];
  }

  /** A successful step extends the results by the step's value. */
  lemma MapAllGrow<T, U, E>(f: T -> Result<U, E>, xs: seq<T>, i: nat, us: seq<U>, u: U)
    requires i < |xs| && MapAll(f, xs[..i]) == Success(us) && f(xs[i]) == Success(u)
    ensures MapAll(f, xs[..i + 1]) == Success(us + [u])
  {
    MapAllStep(f, xs, i);
  }

  /** Once a step fails, the whole traversal fails with that error. */
  lemma {:induction false} MapAllStopsAt<T, U, E>(f: T -> Result<U, E>, xs: seq<T>, i: nat)
    requires i < |xs|
    requires MapAll(f, xs[..i]).Success? && f(xs[i]).Failure?
    ensures MapAll(f, xs) == Failure(f(xs[i]).error)
    decreases |xs| - i
  {
    MapAllStep(f, xs, i);
    MapAllFailurePersists(f, xs, i + 1);
  }

  lemma {:induction false} MapAllFailurePersists<T, U, E>(f: T -> Result<U, E>, xs: seq<T>, n: nat)
    requires n <= |xs| && MapAll(f, xs[..n]).Failure?
    ensures MapAll(f, xs) == MapAll(f, xs[..n])
    decreases |xs| - n
  {
    if n < |xs| {
      MapAllStep(f, xs, n);
      MapAllFailurePersists(f, xs, n + 1);
    } else {
      assert xs[..n] == xs;
    }
  }

  /** The traversal succeeds exactly when every step succeeds, and then the
      k-th result is the k-th step's value. */
  lemma {:induction false} MapAllSuccess<T, U, E>(f: T -> Result<U, E>, xs: seq<T>)
    ensures MapAll(f, xs).Success? <==> forall k :: 0 <= k < |xs| ==> f(xs[k]).Success?
    ensures MapAll(f, xs).Success? ==>
      forall k :: 0 <= k < |xs| ==> MapAll(f, xs).value[k] == f(xs[k]).value
    decreases |xs|
  {
    if xs != [] {
      var init := xs[..|xs| - 1];
      MapAllSuccess(f, init);
      assert forall k :: 0 <= k < |init| ==> init[k] == xs[k];
    }
  }

  /** A failing traversal reports the error of the first failing step. */
  lemma {:induction false} MapAllFailure<T, U, E>(f: T -> Result<U, E>, xs: seq<T>)
    requires MapAll(f, xs).Failure?
    ensures exists k :: (0 <= k < |xs| && f(xs[k]) == Failure(MapAll(f, xs).error)
                         && forall j :: 0 <= j < k ==> f(xs[j]).Success?)
    decreases |xs|
  {
    var init := xs[..|xs| - 1];
    assert forall k :: 0 <= k < |init| ==> init[k] == xs[k];
    if MapAll(f, init).Failure? {
      MapAllFailure(f, init);
      var k :| 0 <= k < |init| && f(init[k]) == Failure(MapAll(f, init).error)
        && forall j :: 0 <= j < k ==> f(init[j]).Success?;
      assert f(xs[k]) == Failure(MapAll(f, xs).error);
    } else {
      MapAllSuccess(f, init);
      assert f(xs[|xs| - 1]) == Failure(MapAll(f, xs).error);
    }
  }

  /** `[x for x in xs if test(x)]` where `test` may raise. */
  function FilterAll<T, E>(test: T -> Result<bool, E>, xs: seq<T>): (r: Result<seq<T>, E>)
    decreases |xs|
    ensures r.Success? ==> |r.value| <= |xs|
    ensures r.Success? ==> forall k :: 0 <= k < |r.value| ==> test(r.value[k]) == Success(true)
  {
    if xs == [] then Success([])
    else
      match test(xs[0])
      case Failure(e) => Failure(e)
      case Success(keep) =>
        match FilterAll(test, xs[1..])
        case Failure(e) => Failure(e)
        case Success(rest) => Success(if keep then [xs[0]] + rest else rest)
  }

  /** The filter raises exactly when some test raises; the error is that of
      the first test to raise. */
  lemma {:induction false} FilterAllFailure<T, E>(test: T -> Result<bool, E>, xs: seq<T>)
    ensures FilterAll(test, xs).Failure? <==> exists k :: 0 <= k < |xs| && test(xs[k]).Failure?
    ensures FilterAll(test, xs).Failure? ==>
      exists k :: 0 <= k < |xs| && test(xs[k]) == Failure(FilterAll(test, xs).error)
        && forall j :: 0 <= j < k ==> test(xs[j]).Success?
    decreases |xs|
  {
    if xs != [] {
      FilterAllFailure(test, xs[1..]);
      assert forall k :: 1 <= k < |xs| ==> xs[k] == xs[1..][k - 1];
      if test(xs[0]).Success? && FilterAll(test, xs[1..]).Failure? {
        var k :| 0 <= k < |xs[1..]| && test(xs[1..][k]) == Failure(FilterAll(test, xs[1..]).error)
          && forall j :: 0 <= j < k ==> test(xs[1..][j]).Success?;
        assert test(xs[k + 1]) == Failure(FilterAll(test, xs).error);
        assert forall j :: 1 <= j < k + 1 ==> test(xs[j]).Success?;
      }
    }
  }

  /** `a` can be obtained from `b` by deleting elements (greedy matching). */
  predicate IsSubsequence<T(==)>(a: seq<T>, b: seq<T>)
    decreases |b|
  {
    a == [] || (b != [] && if a[0] == b[0] then IsSubsequence(a[1..], b[1..]) else IsSubsequence(a, b[1..]))
  }

  /** A successful filter keeps exactly the elements whose test holds, in
      their original order and with their multiplicity. */
  lemma {:induction false} FilterAllSelects<T, E>(test: T -> Result<bool, E>, xs: seq<T>)
    requires FilterAll(test, xs).Success?
    ensures IsSubsequence(FilterAll(test, xs).value, xs)
    ensures forall x :: (multiset(FilterAll(test, xs).value)[x] ==
                         if test(x) == Success(true) then multiset(xs)[x] else 0)
    decreases |xs|
  {
    if xs != [] {
      var rest := FilterAll(test, xs[1..]).value;
      FilterAllSelects(test, xs[1..]);
      assert xs == [xs[0]] + xs[1..];
      if test(xs[0]) == Success(true) {
        assert ([xs[0]] + rest)[1..] == rest;
      } else if rest != [] {
        assert test(rest[0]) == Success(true);
      }
    }
  }

  /** Filtering a list whose every element passes the test returns it
      unchanged; in particular filtering twice is filtering once. */
  lemma {:induction false} FilterAllKeepsPassing<T, E>(test: T -> Result<bool, E>, xs: seq<T>)
    requires forall k :: 0 <= k < |xs| ==> test(xs[k]) == Success(true)
    ensures FilterAll(test, xs) == Success(xs)
    decreases |xs|
  {
    if xs != [] {
      assert forall k :: 0 <= k < |xs[1..]| ==> xs[1..][k] == xs[k + 1];
      FilterAllKeepsPassing(test, xs[1..]);
      assert xs == [xs[0]] + xs[1..];
    }
  }

  lemma FilterAllIdempotent<T, E>(test: T -> Result<bool, E>, xs: seq<T>)
    requires FilterAll(test, xs).Success?
    ensures FilterAll(test, FilterAll(test, xs).value) == FilterAll(test, xs)
  {
    FilterAllKeepsPassing(test, FilterAll(test, xs).value);
  }

  predicate NoDuplicates<T(==)>(xs: seq<T>) {
    forall i, j :: 0 <= i < j < |xs| ==> xs[i] != xs[j]
  }

  /** The distinct elements of `xs` in order of first appearance, as pandas'
      `Series.unique()` returns them. */
  function Distinct<T(==)>(xs: seq<T>): (r: seq<T>)
    decreases |xs|
    ensures NoDuplicates(r)
    ensures forall i :: 0 <= i < |xs| ==> xs[i] in r
    ensures forall i :: 0 <= i < |r| ==> r[i] in xs
  {
    if xs == [] then []
    else
      var init := xs[..|xs| - 1];
      var d := Distinct(init);
      assert forall i :: 0 <= i < |init| ==> init[i] == xs[i];
      if xs[|xs| - 1] in d then d else d + [xs[|xs| - 1]]
  }
}

=== FILE: wrappers.dfy ===
/** Option and Result, the two failure-compatible wrappers the model uses for
    Python's None and for Python exceptions. */
module Wrappers {

  datatype Option<+T> = None | Some(value: T) {
    predicate IsFailure() { None? }

    function PropagateFailure<U>(): Option<U>
      requires None?
    {
      None
    }

    function Extract(): T
      requires Some?
    {
      value
    }
  }

  datatype Result<+R, +E> = Success(value: R) | Failure(error: E) {
    predicate IsFailure() { Failure? }

    function PropagateFailure<U>(): Result<U, E>
      requires Failure?
    {
      Failure(error)
    }

    function Extract(): R
      requires Success?
    {
      value
    }
  }
}
